=== FILE: README.md ===
# dd-trace-py: tracer span stack, integrations and launcher in Dafny

A Dafny model of the parts of dd-trace-py (the Datadog tracing client for
Python) whose behaviour is pinned down by their own code or by the test
suite's assertions:

- **The tracer's span stack** (`tracing.dfy`, module `Tracing`). The engine
  modules (`ddtrace/tracer.py`, `span.py`, `context.py`) are not part of
  this model. What the test suite asserts about them is modelled as a small
  state machine:
  - a stack of open span ids;
  - a map from span id to span record (name, service, resource, span type,
    trace id, parent id, error flag, tags);
  - the finished spans of the trace in progress;
  - an id counter, the `enabled` switch and the test writer.

  `trace` pushes a child of the current span, or a new root. `finish` pops
  the span. Finishing the root hands the trace to the writer when the
  tracer is enabled. `with` blocks and the `wrap` decorator run a unit of
  work inside a span. The invariant `Valid` (linked stack, ids below the
  counter, pending spans in the root's trace) is kept by every operation.
- **The test suite's scenarios** (`tracer_scenarios.dfy`, module
  `TracerScenarios`): each test of `tests/test_tracer.py` replayed as a
  lemma over any idle tracer. Covered are `_make_cake`, the second cake,
  `wrap` named, default-named, raising, repeated and nested, tagging the
  current span, and the disabled tracer.
- **The test doubles** of `tests/utils.py`: the in-memory `DummyWriter`
  (`test_writer.dfy`, module `TestWriter`) and the `FakeTime` clock
  (`fake_clock.dfy`, module `FakeClock`).
- **The Tornado handler wrappers** (`tornado_handler.dfy`, module
  `TornadoHandler`): how `prepare`, `set_status`, `clear`, `render`,
  `render_string` and `on_finish` change the handler's tracing fields. The
  order in which spans are finished is kept as a log interleaved with the
  calls of the original methods. The URI-to-resource derivation is modelled
  too.
- **The DB-API wrapper** (`dbapi.dfy`, module `DbApi`): `_get_module_name`,
  the connection's span name, `configure`/`_set_if`, `cursor` and the span
  `TracedCursor.execute` produces.
- **The `ddtrace-run` launcher** (`ddtrace_run.dfy`, module `DdtraceRun`):
  the PYTHONPATH update, the PATH search against an abstract "exists and is
  executable" predicate, and the service name inferred from the program.
- Shared helpers: `results.dfy` (`Option`, `Result`, and `Outcome`: a call's returned value or raised message) and `strings.dfy`
  (Python's `split`, `join`, `strip`, `replace` and ASCII `lower` on
  `seq<char>`).

Span ids and trace ids come from a counter instead of a random source. A
root span draws a trace id and then a span id; a child draws a span id and
inherits the trace id.

## Model

| member | source | states |
|---|---|---|
| TestWriter.Empty | tests/utils.py:42-48 | a new writer has nothing buffered and no services: either pop hands out nothing and leaves it as it was |
| TestWriter.WriteTrace | tests/utils.py:50-52 | the trace's spans follow the buffered ones, which are unchanged, in order; the services are untouched |
| TestWriter.WriteServices | tests/utils.py:54-56 | the stored services become exactly the given map; the span buffer is untouched |
| TestWriter.Pop | tests/utils.py:58-62 | returns the buffered spans and leaves the buffer empty and the services as they were |
| TestWriter.PopServices | tests/utils.py:64-68 | returns the services map and resets it to `{}`, leaving the spans alone |
| TestWriter.WriteAllAppends | tests/utils.py:50-52 | writing several traces appends all their spans, trace by trace, in order, after the buffer |
| TestWriter.PopReturnsWritesSincePop | tests/utils.py:50-62 | a pop returns exactly the spans written since the previous pop, in write order |
| TestWriter.PopTwiceIsEmpty | tests/utils.py:58-62 | a second pop straight after a pop returns `[]` and changes nothing |
| TestWriter.WriteServicesReplaces | tests/utils.py:54-68 | after two `write_services` calls only the second map is returned; keys only the first had are gone (replace, not merge) |
| TestWriter.PopServicesTwiceIsEmpty | tests/utils.py:64-68 | a second `pop_services` returns `{}` |
| FakeClock.Now | tests/utils.py:20-22 | a reading first adds the step and then returns the new time, which the clock keeps; the step is unchanged |
| FakeClock.SetEpoch | tests/utils.py:24-25 | only the current time changes |
| FakeClock.SetDelta | tests/utils.py:27-28 | only the step changes |
| FakeClock.Sleep | tests/utils.py:30-31 | the time moves by exactly the slept seconds, with no step added |
| FakeClock.ReadingsAreArithmetic | tests/utils.py:20-22 | the i-th of n successive readings is the start time plus (i+1) steps |
| FakeClock.ReadingsStep | tests/utils.py:20-22 | successive readings differ by exactly the step, whatever its sign |
| FakeClock.SuccessiveReadingsIncrease | tests/utils.py:20-22 | with a positive step, successive readings strictly increase, by exactly the step |
| FakeClock.SetEpochReadings | tests/utils.py:20-25 | after `set_epoch(e)` the i-th reading is e plus i+1 of the unchanged steps |
| FakeClock.SetDeltaReadings | tests/utils.py:20-28 | after `set_delta(d)` the first reading is the old time plus d and successive readings differ by exactly d |
| FakeClock.DefaultFirstReading | tests/utils.py:15-22 | a fresh clock (epoch 1e9, step 0.001) first reads epoch + step |
| FakeClock.SleepThenRead | tests/utils.py:20-31 | after a sleep, the next reading is the old time plus the slept seconds plus one step |
| Tracing.NewTracer | tests/utils.py:79-94 | the test tracer is valid, enabled, has no current span and nothing pending, and writes to a fresh writer |
| Tracing.CurrentSpan | tests/test_tracer.py:84 | there is a current span iff the stack is non-empty, and it is the top; in a valid tracer it is a recorded, unfinished span |
| Tracing.Trace | tests/test_tracer.py:58-68 | the new span is current and recorded, nothing else changes; a child is parented to the current span, shares its trace id and takes its service unless given a truthy one; a root has no parent and a trace id no recorded span has; resource defaults to the name |
| Tracing.Finish | tests/test_tracer.py:232-239 | unknown or finished spans are ignored; a span on the stack leaves it with everything above, its parent becomes current and it joins the pending trace; finishing the root empties the stack and writes the trace only when enabled |
| Tracing.PopAt | tests/test_tracer.py:63-66 | finishing a non-root span on the stack makes its parent current and appends it to the pending trace, leaving the writer alone |
| Tracing.CompleteTrace | tests/test_tracer.py:50-61 | finishing the root writes the pending spans then the root when enabled; every written span is finished and has the root's trace id; the root has no parent |
| Tracing.SetTag | tests/test_tracer.py:84-95 | on an open span the tag is added or overwritten and every other tag, field and span is unchanged |
| Tracing.SetService | tests/test_tracer.py:43-44 | only the service of that open span changes |
| Tracing.SetResource | tests/test_tracer.py:43-45 | only the resource of that open span changes |
| Tracing.SetError | tests/test_tracer.py:107-117 | only the error flag of that open span changes, to 1 |
| Tracing.SetEnabled | tests/test_tracer.py:208-211 | only the switch changes |
| Tracing.With | tests/test_tracer.py:107-117 | the block's outcome, a return or a raise, is handed back unchanged |
| Tracing.LeaveTop | tests/test_tracer.py:42-47 | leaving a block pops exactly its span, marks it failed iff the block raised, and either appends it to the pending trace or, as root, completes and writes the trace when enabled |
| Tracing.WithBalanced | tests/test_tracer.py:42-56 | a block whose body leaves the stack as found restores the stack, finishes its span (failed iff the body raised), and joins or completes the trace |
| Tracing.FinishTop | tests/test_tracer.py:232-239 | finishing the current span pops exactly it and joins or completes the trace |
| Tracing.WithInertChild | tests/test_tracer.py:63-68 | a block inside an open span adds one finished child to the pending trace: parent = current span, same trace id, inherited service, resource defaults to name, error iff raised; all earlier spans, the stack and the writer unchanged |
| Tracing.WithInertRoot | tests/test_tracer.py:97-117 | a block on an idle tracer writes its one span iff enabled, failed iff raised, and leaves no current span |
| Tracing.WrapName | tests/test_tracer.py:97-105 | the span name is the explicit one when it is truthy, else exactly module + "." + function name |
| Tracing.RunOnlyAppends | tests/utils.py:50-52 | whatever sequence of trace/finish/tag calls runs, spans already in the writer are never changed or reordered |
| Tracing.DisabledRunWritesNothing | tests/test_tracer.py:208-211 | a disabled tracer writes nothing, whatever calls run |
| TracerScenarios.ExplicitAttributesKept | tests/test_tracer.py:16-21 | explicit service, resource and span type are kept as given |
| TracerScenarios.DefaultAttributes | tests/test_tracer.py:23-27 | on any idle tracer, with nothing given, after a finished trace, a span has no service or span type and its resource is its name |
| TracerScenarios.OpenMakeRoot | tests/test_tracer.py:42-45 | "cake.make" is a root with service "baker" and resource "cake", a positive id and a freshly drawn trace id |
| TracerScenarios.MixThenBakeChildren | tests/test_tracer.py:63-68 | mix and bake become two finished children of the current span, in order, with its trace id and service, resource = name |
| TracerScenarios.MakeCakeTrace | tests/test_tracer.py:50-68 | `_make_cake` on an idle enabled tracer appends exactly three spans (mix, bake, make) with distinct names, parented to make, sharing its trace id and service |
| TracerScenarios.SecondCakeNewTraceId | tests/test_tracer.py:71-75 | after a pop, a second `_make_cake` writes spans none of which shares a trace id with the first cake |
| TracerScenarios.WrapExplicitWithTag | tests/test_tracer.py:77-95 | a function wrapped with name, service, resource and span type writes one span carrying them and the tag its body set |
| TracerScenarios.WrapDefaultName | tests/test_tracer.py:97-105 | without a name, or with an empty one, the one written span is named "module.function" |
| TracerScenarios.WrapClassMethods | tests/test_tracer.py:169-197 | three wrapped methods called in turn return 1, 2 and 3 and write three spans named "module.method" in call order, leaving out the class name |
| TracerScenarios.WrapException | tests/test_tracer.py:107-117 | a raising wrapped function writes one span with error 1 and the exception propagates |
| TracerScenarios.WrapTwiceDistinctIds | tests/test_tracer.py:119-131 | two calls write two spans with distinct span ids |
| TracerScenarios.MidChild | tests/test_tracer.py:140-143 | `with trace('mid'): inner()` adds inner then mid, inner parented to mid, mid to the current span, same trace id |
| TracerScenarios.WrapNesting | tests/test_tracer.py:133-167 | nested wrapped calls write inner, mid, outer; outer is a root, mid its child, inner mid's child |
| TracerScenarios.DisabledWritesNothing | tests/test_tracer.py:199-211 | an enabled traced block writes something; after disabling, the same block writes nothing |
| TracerScenarios.DisabledNoStaleCurrentSpan | tests/test_tracer.py:227-239 | after a span opened and finished while disabled there is no current span, the next span has no parent, and nothing is written |
| Strings.Strip | ddtrace/contrib/tornado/trace_app.py:63 | `strip('/')`: the result is a contiguous middle of the input, everything cut off on either side is '/', and it neither starts nor ends with '/' |
| Strings.ReplaceChar | ddtrace/contrib/tornado/trace_app.py:63 | `replace('/', '_')`: same length, every '/' becomes '_', every other character is kept |
| Strings.LowerAscii | ddtrace/contrib/tornado/trace_app.py:63 | `lower()`: same length, each character lower-cased |
| Strings.Split | ddtrace/scripts/ddtrace_run.py:19 | `split(sep)`: at least one field, no field contains the separator |
| Strings.SplitCount | ddtrace/contrib/dbapi/__init__.py:85 | there are at least two fields iff the separator occurs |
| Strings.SplitFirst | ddtrace/contrib/dbapi/__init__.py:85 | the first field is the longest separator-free prefix |
| TornadoHandler.Resource | ddtrace/contrib/tornado/trace_app.py:62-64 | the resource has the stripped URI's length, and each character is that of the stripped URI with '/' turned into '_' and lower-cased |
| TornadoHandler.ResourceHasNoSlash | ddtrace/contrib/tornado/trace_app.py:62-64 | the resource never contains '/' |
| TornadoHandler.ResourceIdempotent | ddtrace/contrib/tornado/trace_app.py:62-64 | deriving the resource of a resource gives it back |
| TornadoHandler.WrappedPrepare | ddtrace/contrib/tornado/trace_app.py:57-75 | the original is always called and its result returned; without a fault a fresh context and a "tornado.request" span are stored, opened with the service, the derived resource and type http as the arguments of `tracer.trace`, and carrying the URL tag; a failure before or after the context leaves exactly the fields set so far |
| TornadoHandler.PrepareFreshContext | ddtrace/contrib/tornado/trace_app.py:57-60 | two requests prepared on one handler get different contexts |
| TornadoHandler.WrappedSetStatus | ddtrace/contrib/tornado/trace_app.py:125-133 | with a request span: status tag = code, error iff 400 <= code < 600, error-msg tag only with a reason, other tags kept; without one nothing changes; the original is always called |
| TornadoHandler.WrappedClear | ddtrace/contrib/tornado/trace_app.py:112-119 | with a request span: error 0 and status tag 200, other tags kept; without one nothing changes; the original is always called |
| TornadoHandler.ClearAfterErrorStatus | ddtrace/contrib/tornado/trace_app.py:112-133 | `clear` after any `set_status` leaves error 0 and status 200 |
| TornadoHandler.WrappedOnFinish | ddtrace/contrib/tornado/trace_app.py:82-106 | the render span (if any) is finished before the original `on_finish`, the request span (if any) after it; afterwards both span fields are empty, and the context is reset when there was a request span |
| TornadoHandler.OnFinishTwice | ddtrace/contrib/tornado/trace_app.py:82-106 | a second `on_finish` only calls the original again |
| TornadoHandler.OnFinishAtMostOnce | ddtrace/contrib/tornado/trace_app.py:86-105 | one `on_finish` finishes a span not yet finished at most once |
| TornadoHandler.OnFinishTwiceAtMostOnce | ddtrace/contrib/tornado/trace_app.py:86-105 | two `on_finish` calls finish a span not yet finished at most once |
| TornadoHandler.WrappedRender | ddtrace/contrib/tornado/trace_app.py:142-150 | fails iff no context was ever stored; otherwise a "tornado.render" span, opened with type template and the stored context and no service or resource argument, is kept open on the handler with the template tag, and the original is called |
| TornadoHandler.WrappedRenderString | ddtrace/contrib/tornado/trace_app.py:160-168 | fails iff no context was ever stored; otherwise the original runs, then its "tornado.render_string" span is finished (error iff it raised), then its outcome is handed back; the span fields are untouched |
| TornadoHandler.RenderStringKeepsOnFinish | ddtrace/contrib/tornado/trace_app.py:160-168 | a `render_string` between `prepare` and `on_finish` adds only its own call and span: `on_finish` then finishes the same spans in the same order and leaves the same context |
| TornadoHandler.RenderedRequest | ddtrace/contrib/tornado/trace_app.py:57-150 | prepare, set_status, render, on_finish: render span finished after the original render and before the original on_finish, request span (derived resource passed to `tracer.trace`, status, error iff 4xx/5xx) finished last, same context, nothing left on the handler |
| DbApi.GetModuleName | ddtrace/contrib/dbapi/__init__.py:83-85 | fails iff the type string holds no `'`; otherwise the name is the text right after the first `'` up to the next '.' or `'` or the end |
| DbApi.ModuleNameOfClass | ddtrace/contrib/dbapi/__init__.py:83-85 | `<class 'm.rest'>` gives back m |
| DbApi.ConnectionName | ddtrace/contrib/dbapi/__init__.py:53-60 | the name ends in ".query"; before it is the given name, else the parsed module name; an empty name or a failed parse gives "sql" |
| DbApi.NewTracedConnection | ddtrace/contrib/dbapi/__init__.py:45-60 | a new connection has the four tracing attributes, all None except the derived name |
| DbApi.SetIf | ddtrace/contrib/dbapi/__init__.py:74-76 | the attribute is overwritten only when present and the value truthy; nothing else changes and no attribute is added |
| DbApi.Configure | ddtrace/contrib/dbapi/__init__.py:72-81 | each of the four attributes is overwritten only when present and its value truthy; other attributes unchanged, none added |
| DbApi.ConfigureFalsyNoop | ddtrace/contrib/dbapi/__init__.py:72-81 | configuring with only falsy values changes nothing |
| DbApi.ConfigureIdempotent | ddtrace/contrib/dbapi/__init__.py:72-81 | configuring twice with the same values equals configuring once |
| DbApi.OpenCursor | ddtrace/contrib/dbapi/__init__.py:62-70 | the cursor carries exactly the connection's service, name and tags, and its tracer or, when that is falsy, the global one |
| DbApi.FreshConnectionCursor | ddtrace/contrib/dbapi/__init__.py:23-70 | a fresh connection's cursor has no service or tags, the global tracer, and the derived name |
| DbApi.ConfiguredCursor | ddtrace/contrib/dbapi/__init__.py:62-81 | settings given to `configure` reach the cursors opened afterwards |
| DbApi.Execute | ddtrace/contrib/dbapi/__init__.py:30-42 | disabled: the driver gets `*args` only, no span; enabled: one span, opened with the connection's name and service, resource = query and type sql as the arguments of `tracer.trace`, carrying the sql.query tag with truthy tags merged over it, the driver gets query and args, the row count metric is set whether it returned or raised, error iff raised; non-dict truthy tags raise before the driver is called |
| DbApi.ExecuteOnFreshConnection | ddtrace/contrib/dbapi/__init__.py:30-60 | a query on a fresh connection's cursor yields a span named "module.query" with just the query tag and the row count |
| DdtraceRun.BootstrapPath | ddtrace/scripts/ddtrace_run.py:16-24 | no PYTHONPATH: the bootstrap dir; otherwise the bootstrap dir alone iff it is an entry, else bootstrap dir + ':' + old value |
| DdtraceRun.AddBootstrap | ddtrace/scripts/ddtrace_run.py:16-24 | only PYTHONPATH is set or changed, to `BootstrapPath` of its old value |
| DdtraceRun.BootstrapEntries | ddtrace/scripts/ddtrace_run.py:16-24 | the new entries are the bootstrap dir, followed by the old entries only when it was not one of them |
| DdtraceRun.BootstrapFirst | ddtrace/scripts/ddtrace_run.py:16-24 | in every case the first entry is the bootstrap dir |
| DdtraceRun.BootstrapNotIdempotent | ddtrace/scripts/ddtrace_run.py:17-24 | applied twice to a path without the bootstrap dir, the second run leaves only the bootstrap dir |
| DdtraceRun.BootstrapDropsEntries | ddtrace/scripts/ddtrace_run.py:20-24 | "b:x" becomes "b": the other entries are dropped |
| DdtraceRun.BootstrapPathKept | ddtrace/scripts/ddtrace_run.py:16-24 | corrected update: the old value is kept when the bootstrap dir is already an entry, otherwise as written |
| DdtraceRun.BootstrapKeptProperties | ddtrace/scripts/ddtrace_run.py:16-24 | the corrected update puts the bootstrap dir on the path, loses no old entry, and is idempotent |
| DdtraceRun.Dirname | ddtrace/scripts/ddtrace_run.py:12-14 | the directory part is empty iff the path has no '/'; otherwise it is everything before the base name, without its trailing slashes unless that is all slashes |
| DdtraceRun.Basename | ddtrace/scripts/ddtrace_run.py:52 | the base name is the '/'-free suffix of the path that follows its last '/', the whole path when it has no '/' |
| DdtraceRun.JoinPath | ddtrace/scripts/ddtrace_run.py:41 | an absolute second part wins; otherwise the second part is appended to the first, with a '/' between unless the first is empty or ends in one |
| DdtraceRun.JoinDirname | ddtrace/scripts/ddtrace_run.py:14-29 | the directory part of a directory (not ending in '/') joined with a plain name is that directory |
| DdtraceRun.JoinBasename | ddtrace/scripts/ddtrace_run.py:41-52 | the base name of dir joined with a plain name is that name |
| DdtraceRun.FirstExecutable | ddtrace/scripts/ddtrace_run.py:40-44 | the index found holds an executable candidate and no earlier candidate does; -1 iff none does |
| DdtraceRun.Resolve | ddtrace/scripts/ddtrace_run.py:36-44 | a name with a directory is kept; a bare name becomes the first PATH entry holding it as an executable, else is kept |
| DdtraceRun.Main | ddtrace/scripts/ddtrace_run.py:27-55 | PYTHONPATH is updated even when fewer than 2 arguments give the usage; otherwise the resolved program is run with its arguments, and the service name is set to its base name only when absent; no other variable changes or appears; the usage case changes PYTHONPATH only |
| DdtraceRun.ServiceNamedAfterProgram | ddtrace/scripts/ddtrace_run.py:36-53 | a bare program name becomes the service name, whichever PATH entry it was found in |

## Left out

- The tracer engine (`ddtrace/tracer.py`, `span.py`, `context.py`, `writer.py`) is not part of this model. The tracer model agrees with what the test suite asserts. Where the tests are silent it makes its own choices, listed in the next four lines; one more is that a finished root is written only when the tracer is enabled.
- Tracing.Finish: finishing an open span below the top of the stack pops it together with every span above it; those spans stay open and are never written. The engine's context removes only the finished span.
- Tracing.Finish: a span finished after it has left the stack (a child finished after its root, say) is only marked finished; it joins no trace and is never written.
- Tracing.WithInertChild: a body that raises only sets the span's error flag to 1, here and in `Tracing.With` and `Tracing.LeaveTop`. The error tags the engine takes from the exception (message, type, stack) are not modelled, so the span's tags stay as the body left them: empty for an inert body.
- Tracing.SetEnabled: a disabled tracer still opens and closes spans on its stack exactly as an enabled one does; it only skips the write of a finished trace.
- Random 63-bit span and trace ids: replaced by a counter, which makes distinct ids a consequence of the counter only growing.
- The `AgentWriter`/`HTTPTransport` superclass work `DummyWriter` also triggers (a background flush thread and network I/O): not modelled.
- Real time and sleeping: the scenario bodies that sleep are units of work that leave the tracer alone.
- FakeClock.DefaultFirstReading: times are exact reals, so 1e9 + 0.001 is exact; the Python float result is the nearest double.
- The numpy serialization test (`tests/test_tracer.py:213-225`): its subject, span serialization, is not modelled.
- `tests/benchmark.py`, `tests/ddtrace_run_test.py`, `ddtrace/bootstrap/sitecustomize.py`, `ddtrace/contrib/tornado/__init__.py` and the Flask and Pylons `patch.py` files: timing, a subprocess check, import-time wiring, re-exports and runtime class replacement, none of which has logic of its own here.
- Tornado's class patching loops, the `set_service_info` call and logging (`trace_app.py:26-48`): not modelled; a swallowed exception is just the absence of the effect it interrupted.
- TornadoHandler.Resource: `compat.to_unicode` is the identity on `seq<char>`.
- Strings.LowerAscii: lower-cases ASCII letters only; Python's `str.lower` is Unicode-wide.
- TornadoHandler.WrappedSetStatus: the span's error is stored as 0/1; the source assigns the boolean `status_code >= 400 and status_code < 600`.
- TornadoHandler.WrappedPrepare: the request span record (`HSpan`) holds what the wrapper passes to `tracer.trace` and sets on the span, not the span as the tracer stores it. The tracer's defaults are not applied: a resource that derives to "" (as the URI "/" gives) is not replaced by the name.
- TornadoHandler.WrappedRender: likewise, the render span record carries no service and no resource, as the wrapper passes none; the service the tracer takes from the request span in the same context, and the name it uses as resource, are not applied. The same holds for `TornadoHandler.WrappedRenderString` and `TornadoHandler.RenderedRequest`.
- TornadoHandler.WrappedRenderString: when the original raises, the render span's tags are exactly the template tag; the error tags the tracer's `with` exit takes from the exception (message, type, stack) are not modelled, as for `Tracing.WithInertChild`.
- TornadoHandler.WrappedPrepare: where inside `prepare` tracing fails is an input (`PrepareFault`), not derived from the tracer; a raise from the original `prepare` is not modelled.
- TornadoHandler.WrappedOnFinish: the original `on_finish` is taken to return; if it raised, the request span would stay unfinished, which is not modelled.
- `**kwargs` of `render`, `render_string`, `cursor` and `execute`: passed through untouched and not modelled.
- DbApi.Execute: the database call is an abstract outcome and row count; a truthy non-dict tags value is taken to make `set_tags` raise, with a fixed message.
- DbApi.Execute: when the driver raises, the span's tags are exactly the query tag and the configured tags; the error tags the tracer's `with` exit takes from the exception (message, type, stack) are not modelled, as for `Tracing.WithInertChild`.
- DbApi.Execute: the span record holds what the wrapper passes to `tracer.trace` and sets on the span, not the span as the tracer stores it; the tracer's defaults (an empty resource read as the name, an unset service taken from the parent) are not applied to it.
- wrapt proxy attribute delegation in `TracedCursor`/`TracedConnection`: not modelled.
- DdtraceRun.Main: printing, `os.execl` (an `Exec` result instead) and the file system, which is the predicate `exe`; `os.path.pathsep` is taken to be ':' (POSIX).
- DdtraceRun.BootstrapEntries: assumes the bootstrap directory contains no ':'; so do BootstrapFirst, BootstrapNotIdempotent, BootstrapDropsEntries and BootstrapKeptProperties.
- Tracing.Wrap, TracerScenarios.Inner, TracerScenarios.MidThenInner and TracerScenarios.TagCurrent have no rows: their contracts only say which `with` block or body they are; their behaviour is stated by the wrap scenarios.

## Findings

| source | as written | input that shows it | evidently intended | confidence | as-written member | corrected member |
|---|---|---|---|---|---|---|
| ddtrace/scripts/ddtrace_run.py:17-24 | when the bootstrap directory is already a PYTHONPATH entry, PYTHONPATH is set to the bootstrap directory alone | PYTHONPATH = "b:x" with bootstrap dir "b" (as after a nested `ddtrace-run`) becomes "b", losing "x"; running the update twice on "x" gives "b" | keep PYTHONPATH unchanged when the directory is already on it, so no entry is lost and the update is idempotent | medium, not executed | DdtraceRun.BootstrapDropsEntries | DdtraceRun.BootstrapKeptProperties |

`DdtraceRun.BootstrapNotIdempotent` also shows the as-written behaviour. `DdtraceRun.BootstrapPathKept` is the corrected update. `DdtraceRun.Main` keeps the code's behaviour as written.

=== FILE: dbapi.dfy ===
/** The DB-API integration: a traced connection names its spans after the
    driver module, hands its settings to every cursor it opens, and a traced
    cursor's `execute` runs the driver's `execute` inside one span. Python
    values the wrappers pass around are a small `PyValue` universe with
    Python's truthiness. */
module DbApi {
  import opened Results
  import opened Strings

  /** `sql.TYPE` and `sql.QUERY` of the ext constants. */
  const SqlType := "sql"
  const QueryTag := "sql.query"
  const RowCountMetric := "db.rowcount"

  /** The values the wrappers read and store: `None`, strings, tracer
      objects (told apart by a serial number) and tag dictionaries. */
  datatype PyValue =
    | PyNone
    | PyStr(s: string)
    | PyTracer(serial: nat)
    | PyDict(entries: map<string, string>)

  /** Python truthiness: `None`, the empty string and the empty dict are
      false; a tracer object is true. */
  predicate Truthy(v: PyValue) {
    match v
    case PyNone => false
    case PyStr(s) => s != ""
    case PyTracer(_) => true
    case PyDict(m) => m != map[]
  }

  /** `_get_module_name`: the second `'`-separated field of the type's
      string form, up to its first '.'. Indexing the second field fails
      when the string holds no `'`. On success the name is the text right
      after the first `'`, as far as the next '.' or `'` or the end. */
  function GetModuleName(typeName: string): (r: Result<string, string>)
    ensures r.Failure? <==> '\'' !in typeName
    ensures r.Success? ==> '.' !in r.value && '\'' !in r.value
    ensures r.Success? ==>
      var q := |Split(typeName, '\'')[0]|;
      var e := q + 1 + |r.value|;
      && e <= |typeName|
      && typeName[q] == '\'' && '\'' !in typeName[..q]
      && typeName[q + 1..e] == r.value
      && (e < |typeName| ==> typeName[e] == '.' || typeName[e] == '\'')
  {
    SplitCount(typeName, '\'');
    var fields := Split(typeName, '\'');
    if |fields| < 2 then Failure("IndexError: list index out of range")
    else
      SplitFirst(typeName, '\'');
      SplitRest(typeName, '\'');
      var rest := typeName[|fields[0]| + 1..];
      assert fields[1] == Split(rest, '\'')[0];
      SplitFirst(rest, '\'');
      SplitFirst(fields[1], '.');
      Success(Split(fields[1], '.')[0])
  }

  /** The module name is read back from the string form of a class of that
      module: `<class 'm.rest'>` gives `m`. */
  lemma ModuleNameOfClass(m: string, rest: string)
    requires '.' !in m && '\'' !in m && '\'' !in rest
    ensures GetModuleName("<class '" + m + "." + rest + "'>") == Success(m)
  {
    var t := "<class '" + m + "." + rest + "'>";
    assert t == "<class " + ['\''] + (m + "." + rest + "'>");
    SplitAfterField("<class ", '\'', m + "." + rest + "'>");
    assert m + "." + rest + "'>" == (m + "." + rest) + ['\''] + ">";
    assert '\'' !in m + "." + rest;
    SplitAfterField(m + "." + rest, '\'', ">");
    assert m + "." + rest == m + ['.'] + rest;
    SplitAfterField(m, '.', rest);
  }

  /** `TracedConnection.__init__` naming: the given name, else the parsed
      module name; a failed parse (logged) or an empty name falls back to
      "sql"; the span name is that followed by ".query". */
  function ConnectionName(name: Option<string>, typeName: string): (r: string)
    ensures |r| >= 6 && r[|r| - 6..] == ".query"
    ensures var base := r[..|r| - 6];
      && (name.Some? && name.value != "" ==> base == name.value)
      && (name.Some? && name.value == "" ==> base == "sql")
      && (name.None? && '\'' !in typeName ==> base == "sql")
      && (name.None? && '\'' in typeName ==>
            base == (if GetModuleName(typeName).value == "" then "sql" else GetModuleName(typeName).value))
  {
    var parsed :=
      if name.Some? then name
      else match GetModuleName(typeName)
        case Success(m) => Some(m)
        case Failure(_) => None;
    var base := if parsed.Some? && parsed.value != "" then parsed.value else "sql";
    assert (base + ".query")[..|base|] == base;
    base + ".query"
  }

  /** The four tracing attributes of a connection. */
  const ServiceAttr := "datadog_service"
  const TracerAttr := "datadog_tracer"
  const NameAttr := "datadog_name"
  const TagsAttr := "datadog_tags"

  /** A connection object as `configure` sees it: the attributes it has
      (`hasattr`) and their values. */
  type Attrs = map<string, PyValue>

  /** A freshly wrapped connection: the class attributes are `None` except
      the name, which `__init__` sets. */
  function NewTracedConnection(name: Option<string>, typeName: string): (c: Attrs)
    ensures IsTraced(c)
    ensures c[NameAttr] == PyStr(ConnectionName(name, typeName))
    ensures c[ServiceAttr] == PyNone && c[TracerAttr] == PyNone && c[TagsAttr] == PyNone
  {
    map[ServiceAttr := PyNone, TracerAttr := PyNone, NameAttr := PyStr(ConnectionName(name, typeName)),
        TagsAttr := PyNone]
  }

  /** Has every tracing attribute, as a `TracedConnection` does. */
  predicate IsTraced(c: Attrs) {
    ServiceAttr in c && TracerAttr in c && NameAttr in c && TagsAttr in c
  }

  /** `_set_if(attr, val)`: overwrites the attribute only when the object
      has it and the value is truthy. */
  function SetIf(c: Attrs, attr: string, val: PyValue): (r: Attrs)
    ensures r.Keys == c.Keys
    ensures forall a :: a in c && a != attr ==> r[a] == c[a]
    ensures attr in c ==> r[attr] == (if Truthy(val) then val else c[attr])
  {
    if attr in c && Truthy(val) then c[attr := val] else c
  }

  /** `configure(conn, name, service, tracer, tags)`. */
  function Configure(c: Attrs, name: PyValue, service: PyValue, tracer: PyValue, tags: PyValue): (r: Attrs)
    ensures r.Keys == c.Keys
    ensures forall a :: a in c && a !in {ServiceAttr, TracerAttr, NameAttr, TagsAttr} ==> r[a] == c[a]
    ensures ServiceAttr in c ==> r[ServiceAttr] == (if Truthy(service) then service else c[ServiceAttr])
    ensures TracerAttr in c ==> r[TracerAttr] == (if Truthy(tracer) then tracer else c[TracerAttr])
    ensures NameAttr in c ==> r[NameAttr] == (if Truthy(name) then name else c[NameAttr])
    ensures TagsAttr in c ==> r[TagsAttr] == (if Truthy(tags) then tags else c[TagsAttr])
  {
    var c1 := SetIf(c, ServiceAttr, service);
    var c2 := SetIf(c1, TracerAttr, tracer);
    var c3 := SetIf(c2, NameAttr, name);
    SetIf(c3, TagsAttr, tags)
  }

  /** Configuring with nothing truthy changes nothing; configuring twice
      with the same values is the same as once. */
  lemma ConfigureFalsyNoop(c: Attrs)
    ensures Configure(c, PyNone, PyStr(""), PyNone, PyDict(map[])) == c
  {
  }

  lemma ConfigureIdempotent(c: Attrs, name: PyValue, service: PyValue, tracer: PyValue, tags: PyValue)
    ensures var once := Configure(c, name, service, tracer, tags);
      Configure(once, name, service, tracer, tags) == once
  {
  }

  /** Which tracer a cursor uses: the one configured, or the global
      `ddtrace.tracer` when none was (`tracer or ddtrace.tracer`). */
  datatype TracerRef = Configured(tracer: PyValue) | Global

  /** The settings a `TracedCursor` carries. */
  datatype Cursor = Cursor(service: PyValue, tracer: TracerRef, name: PyValue, tags: PyValue)

  /** `cursor()`: a traced cursor carrying exactly the connection's service,
      name, tracer and tags. */
  function OpenCursor(c: Attrs): (r: Cursor)
    requires IsTraced(c)
    ensures r.service == c[ServiceAttr] && r.name == c[NameAttr] && r.tags == c[TagsAttr]
    ensures r.tracer == (if Truthy(c[TracerAttr]) then Configured(c[TracerAttr]) else Global)
  {
    var t := c[TracerAttr];
    Cursor(c[ServiceAttr], if Truthy(t) then Configured(t) else Global, c[NameAttr], c[TagsAttr])
  }

  /** A fresh connection's cursor uses the global tracer, no service, no
      tags, and the connection's span name. */
  lemma FreshConnectionCursor(name: Option<string>, typeName: string)
    ensures OpenCursor(NewTracedConnection(name, typeName))
         == Cursor(PyNone, Global, PyStr(ConnectionName(name, typeName)), PyNone)
  {
  }

  /** Settings given to `configure` reach the cursors opened afterwards. */
  lemma ConfiguredCursor(name: string, typeName: string, service: string, tracer: nat)
    requires service != ""
    ensures var c := Configure(NewTracedConnection(Some(name), typeName), PyNone, PyStr(service), PyTracer(tracer), PyNone);
      OpenCursor(c) == Cursor(PyStr(service), Configured(PyTracer(tracer)), PyStr(ConnectionName(Some(name), typeName)), PyNone)
  {
  }

  /** What `execute` gives the tracer for its span: the arguments it passes
      to `tracer.trace` (name, service, resource, span type) and the tags,
      metrics and error flag it sets before the span finishes. The tracer's
      own defaults (an empty resource read as the name, an unset service
      taken from the parent span) are not applied here. */
  datatype QuerySpan = QuerySpan(
    name: PyValue,
    service: PyValue,
    resource: string,
    spanType: string,
    meta: map<string, string>,
    metrics: map<string, int>,
    error: int)

  /** What one `execute` did: the arguments the driver's `execute` got (if
      it was called), the span written (if any), and how the call ended. */
  datatype Execution = Execution(driverArgs: Option<seq<PyValue>>, span: Option<QuerySpan>, outcome: Outcome<PyValue>)

  /** `TracedCursor.execute(query, *args)`. Disabled: the driver is called
      with `*args` only, so the query is not passed on, and no span is made.
      Enabled: a span named after the connection with the query as resource,
      type "sql" and the query tag, the configured tags merged over them;
      the driver gets the query and `*args`; the row count metric is set
      whether the driver returned or raised, and a raise marks the span
      failed and propagates. Tags that are truthy but not a dict make
      `set_tags` raise before the driver is called. */
  function Execute(cur: Cursor, enabled: bool, query: string, args: seq<PyValue>,
                   driver: Outcome<PyValue>, rowcount: int): (r: Execution)
    ensures !enabled ==> r == Execution(Some(args), None, driver)
    ensures enabled ==> r.span.Some?
    ensures enabled ==>
      && var s := r.span.value;
      && s.name == cur.name && s.service == cur.service && s.resource == query && s.spanType == SqlType
      && QueryTag in s.meta
      && (!(Truthy(cur.tags) && cur.tags.PyDict? && QueryTag in cur.tags.entries) ==> s.meta[QueryTag] == query)
      && (Truthy(cur.tags) && cur.tags.PyDict? ==>
            && s.meta.Keys == {QueryTag} + cur.tags.entries.Keys
            && forall k :: k in cur.tags.entries ==> s.meta[k] == cur.tags.entries[k])
      && (!Truthy(cur.tags) ==> s.meta == map[QueryTag := query])
    ensures enabled && (!Truthy(cur.tags) || cur.tags.PyDict?) ==>
      && r.driverArgs == Some([PyStr(query)] + args)
      && r.outcome == driver
      && r.span.value.metrics == map[RowCountMetric := rowcount]
      && (r.span.value.error == 1 <==> driver.Raised?)
    ensures enabled && Truthy(cur.tags) && !cur.tags.PyDict? ==>
      && r.driverArgs == None && r.outcome.Raised? && r.span.value.error == 1 && r.span.value.metrics == map[]
      && r.span.value.meta == map[QueryTag := query]
  {
    if !enabled then Execution(Some(args), None, driver)
    else
      var started := QuerySpan(cur.name, cur.service, query, SqlType, map[QueryTag := query], map[], 0);
      if Truthy(cur.tags) && !cur.tags.PyDict? then
        Execution(None, Some(started.(error := 1)), Raised("AttributeError: items"))
      else
        var tagged := if Truthy(cur.tags) then started.(meta := started.meta + cur.tags.entries) else started;
        var measured := tagged.(metrics := tagged.metrics[RowCountMetric := rowcount]);
        var finished := measured.(error := if driver.Raised? then 1 else 0);
        Execution(Some([PyStr(query)] + args), Some(finished), driver)
  }

  /** A query on a fresh connection's cursor, enabled: the span is named
      "<module>.query" after the driver module and carries the query. */
  lemma ExecuteOnFreshConnection(m: string, rest: string, query: string, rowcount: int, v: PyValue)
    requires '.' !in m && '\'' !in m && '\'' !in rest && m != ""
    ensures var cur := OpenCursor(NewTracedConnection(None, "<class '" + m + "." + rest + "'>"));
            var r := Execute(cur, true, query, [], Returned(v), rowcount);
      && r.span.Some? && r.span.value.name == PyStr(m + ".query")
      && r.span.value.meta == map[QueryTag := query]
      && r.span.value.metrics[RowCountMetric] == rowcount
      && r.outcome == Returned(v)
  {
    ModuleNameOfClass(m, rest);
    var n := ConnectionName(None, "<class '" + m + "." + rest + "'>");
    assert n == m + ".query";
  }
}

=== FILE: ddtrace_run.dfy ===
/** The `ddtrace-run` launcher: it puts the bootstrap directory on
    PYTHONPATH, finds the program through PATH when it was given without a
    directory, names the service after the program unless one is set, and
    hands over to the program. Paths follow POSIX rules (`posixpath`); the
    file system's "exists and is executable" test is a parameter. */
module DdtraceRun {
  import opened Results
  import opened Strings

  /** `os.path.pathsep` on POSIX. */
  const PathSep := ':'

  const PythonPathVar := "PYTHONPATH"
  const PathVar := "PATH"
  const ServiceVar := "DATADOG_SERVICE_NAME"

  type Env = map<string, string>

  /** The PYTHONPATH `_add_bootstrap_to_pythonpath` computes from the previous
      value, if any: the bootstrap directory alone when there was none or
      when it already was an entry, otherwise the bootstrap directory
      prepended to the previous value. */
  function BootstrapPath(prev: Option<string>, b: string): (r: string)
    ensures prev.None? ==> r == b
    ensures prev.Some? ==> (r == b <==> b in Split(prev.value, PathSep))
    ensures prev.Some? && b !in Split(prev.value, PathSep) ==>
      |r| == |b| + 1 + |prev.value| && r[..|b|] == b && r[|b|] == PathSep && r[|b| + 1..] == prev.value
  {
    match prev
    case None => b
    case Some(p) => if b in Split(p, PathSep) then b else b + [PathSep] + p
  }

  /** `_add_bootstrap_to_pythonpath(b)` on the environment: only PYTHONPATH
      changes. */
  function AddBootstrap(env: Env, b: string): (r: Env)
    ensures r.Keys == env.Keys + {PythonPathVar}
    ensures forall k :: k in env && k != PythonPathVar ==> r[k] == env[k]
    ensures r[PythonPathVar] == BootstrapPath(if PythonPathVar in env then Some(env[PythonPathVar]) else None, b)
  {
    env[PythonPathVar := BootstrapPath(if PythonPathVar in env then Some(env[PythonPathVar]) else None, b)]
  }

  /** The entries of the new PYTHONPATH: the bootstrap directory, followed
      by the previous entries only when it was not one of them already. */
  lemma BootstrapEntries(prev: Option<string>, b: string)
    requires PathSep !in b
    ensures Split(BootstrapPath(prev, b), PathSep)
         == [b] + (if prev.Some? && b !in Split(prev.value, PathSep) then Split(prev.value, PathSep) else [])
  {
    SplitWithout(b, PathSep);
    if prev.Some? && b !in Split(prev.value, PathSep) {
      SplitAfterField(b, PathSep, prev.value);
    }
  }

  /** Whatever PYTHONPATH held, its first entry afterwards is the bootstrap
      directory. */
  lemma BootstrapFirst(env: Env, b: string)
    requires PathSep !in b
    ensures Split(AddBootstrap(env, b)[PythonPathVar], PathSep)[0] == b
  {
    BootstrapEntries(if PythonPathVar in env then Some(env[PythonPathVar]) else None, b);
  }

  /** Running the launcher's PYTHONPATH update twice on a path that does not
      hold the bootstrap directory gives a different result from running it
      once: the second run finds the directory and drops everything else. */
  lemma BootstrapNotIdempotent(env: Env, b: string)
    requires PathSep !in b && PythonPathVar in env && b !in Split(env[PythonPathVar], PathSep)
    ensures var once := AddBootstrap(env, b);
            var twice := AddBootstrap(once, b);
      && once[PythonPathVar] == b + [PathSep] + env[PythonPathVar]
      && twice[PythonPathVar] == b
      && twice[PythonPathVar] != once[PythonPathVar]
  {
    BootstrapEntries(Some(env[PythonPathVar]), b);
  }

  /** When the bootstrap directory is already on PYTHONPATH, every other
      entry is dropped: "b:x" becomes "b". */
  lemma BootstrapDropsEntries(b: string, x: string)
    requires PathSep !in b
    ensures BootstrapPath(Some(b + [PathSep] + x), b) == b
  {
    SplitAfterField(b, PathSep, x);
  }

  /** The PYTHONPATH update with the previous value kept when the bootstrap
      directory is already an entry. */
  function BootstrapPathKept(prev: Option<string>, b: string): (r: string)
    ensures prev.Some? && b in Split(prev.value, PathSep) ==> r == prev.value
    ensures !(prev.Some? && b in Split(prev.value, PathSep)) ==> r == BootstrapPath(prev, b)
  {
    match prev
    case None => b
    case Some(p) => if b in Split(p, PathSep) then p else b + [PathSep] + p
  }

  /** The kept-value update loses no entry, puts the bootstrap directory on
      the path, and a second run changes nothing. */
  lemma BootstrapKeptProperties(prev: Option<string>, b: string)
    requires PathSep !in b
    ensures var r := BootstrapPathKept(prev, b);
      && b in Split(r, PathSep)
      && (prev.Some? ==> forall e :: e in Split(prev.value, PathSep) ==> e in Split(r, PathSep))
      && BootstrapPathKept(Some(r), b) == r
  {
    var r := BootstrapPathKept(prev, b);
    if prev.Some? && b in Split(prev.value, PathSep) {
    } else {
      BootstrapEntries(prev, b);
    }
  }

  /** All of `s` is the character `c`. */
  predicate AllChar(s: string, c: char) {
    forall j :: 0 <= j < |s| ==> s[j] == c
  }

  /** `posixpath.dirname`: everything up to the last '/', without trailing
      slashes unless it is nothing but slashes. */
  function Dirname(p: string): (r: string)
    ensures r == "" <==> '/' !in p
    ensures '/' in p ==>
      var head := p[..|p| - |Basename(p)|];
      && (AllChar(head, '/') ==> r == head)
      && (!AllChar(head, '/') ==>
            && 0 < |r| < |head| && r == head[..|r|] && r[|r| - 1] != '/'
            && AllChar(head[|r|..], '/'))
  {
    var i := RFind(p, '/') + 1;
    var head := p[..i];
    if head != "" && !AllChar(head, '/') then TrimRight(head, '/') else head
  }

  /** `posixpath.basename`: everything after the last '/'. */
  function Basename(p: string): (r: string)
    ensures '/' !in r
    ensures |r| <= |p| && r == p[|p| - |r|..]
    ensures '/' !in p ==> r == p
    ensures |r| < |p| ==> p[|p| - |r| - 1] == '/'
  {
    p[RFind(p, '/') + 1..]
  }

  /** `posixpath.join(a, b)` for two parts: an absolute `b` replaces `a`;
      otherwise `b` is appended to `a`, with a '/' in between unless `a` is
      empty or already ends in one. */
  function JoinPath(a: string, b: string): (r: string)
    ensures |b| > 0 && b[0] == '/' ==> r == b
    ensures !(|b| > 0 && b[0] == '/') ==> |r| >= |b| && r[|r| - |b|..] == b
    ensures !(|b| > 0 && b[0] == '/') && (a == "" || a[|a| - 1] == '/') ==> r == a + b
    ensures !(|b| > 0 && b[0] == '/') && a != "" && a[|a| - 1] != '/' ==> r == a + "/" + b
  {
    if |b| > 0 && b[0] == '/' then b
    else if a == "" || a[|a| - 1] == '/' then a + b
    else a + "/" + b
  }

  /** Joining a directory and a plain name and taking the base name gives
      the name back. */
  lemma JoinBasename(a: string, b: string)
    requires '/' !in b
    ensures Basename(JoinPath(a, b)) == b
  {
    var r := JoinPath(a, b);
    var pre := if a == "" || a[|a| - 1] == '/' then a else a + "/";
    assert r == pre + b;
    if pre == "" {
      assert r == b;
    } else {
      assert pre[|pre| - 1] == '/';
      var k := RFind(r, '/');
      assert r[|pre| - 1] == '/';
      assert k >= |pre| - 1;
      assert r[k + 1..] == b;
    }
  }

  /** Joining a directory (not ending in '/') and a plain name and taking
      the directory part gives the directory back. */
  lemma JoinDirname(a: string, b: string)
    requires a != "" && a[|a| - 1] != '/' && '/' !in b
    ensures Dirname(JoinPath(a, b)) == a
  {
    var p := JoinPath(a, b);
    assert p == (a + "/") + b;
    JoinBasename(a, b);
    var head := p[..|p| - |b|];
    assert head == a + "/";
    assert !AllChar(head, '/') by {
      assert head[|a| - 1] != '/';
    }
    var r := Dirname(p);
    assert r == head[..|a|] == a;
  }

  /** The paths the search tries: `prog` joined to each PATH entry, in
      order. */
  function SearchPaths(dirs: seq<string>, prog: string): (r: seq<string>)
    ensures |r| == |dirs|
    ensures forall j :: 0 <= j < |dirs| ==> r[j] == JoinPath(dirs[j], prog)
  {
    seq(|dirs|, j requires 0 <= j < |dirs| => JoinPath(dirs[j], prog))
  }

  /** The index of the first of `paths[from..]` that exists and is
      executable, or -1. */
  function FirstExecutable(paths: seq<string>, exe: string -> bool, from: nat): (i: int)
    requires from <= |paths|
    ensures i == -1 || from <= i < |paths|
    ensures i >= 0 ==> exe(paths[i])
    ensures forall j :: from <= j < |paths| && (i < 0 || j < i) ==> !exe(paths[j])
    decreases |paths| - from
  {
    if from == |paths| then -1
    else if exe(paths[from]) then from
    else FirstExecutable(paths, exe, from + 1)
  }

  /** The program path `main` runs: a name without a directory is looked
      up in the PATH entries (an absent PATH reads as ""), the first entry
      holding it as an executable wins, and a name found nowhere, or given
      with a directory, is used as it is. */
  function Resolve(prog: string, path: Option<string>, exe: string -> bool): (r: string)
    ensures '/' in prog ==> r == prog
    ensures '/' !in prog ==>
      var dirs := Split(path.GetOr(""), PathSep);
      var i := FirstExecutable(SearchPaths(dirs, prog), exe, 0);
      && (i < 0 ==> r == prog && forall j :: 0 <= j < |dirs| ==> !exe(JoinPath(dirs[j], prog)))
      && (i >= 0 ==> r == JoinPath(dirs[i], prog) && exe(r))
  {
    if Dirname(prog) != "" then prog
    else
      var dirs := Split(path.GetOr(""), PathSep);
      var i := FirstExecutable(SearchPaths(dirs, prog), exe, 0);
      if i < 0 then prog else JoinPath(dirs[i], prog)
  }

  /** What `main` ends in: the usage message, or `os.execl` of the program
      with its arguments, under the environment as updated. */
  datatype Launch = Usage(env: Env) | Exec(env: Env, program: string, args: seq<string>)

  /** `main()`: `ddtraceFile` is the path of the ddtrace package's
      `__init__`, whose directory holds `bootstrap`. */
  function Main(env: Env, argv: seq<string>, ddtraceFile: string, exe: string -> bool): (r: Launch)
    ensures r.env.Keys >= env.Keys && PythonPathVar in r.env
    ensures r.env.Keys <= env.Keys + {PythonPathVar, ServiceVar}
    ensures r.Usage? ==> r.env == AddBootstrap(env, JoinPath(Dirname(ddtraceFile), "bootstrap"))
    ensures r.env[PythonPathVar] == AddBootstrap(env, JoinPath(Dirname(ddtraceFile), "bootstrap"))[PythonPathVar]
    ensures r.Usage? <==> |argv| < 2
    ensures r.Exec? ==>
      && r.program == Resolve(argv[1], if PathVar in env then Some(env[PathVar]) else None, exe)
      && r.args == [r.program] + argv[2..]
      && ServiceVar in r.env
      && r.env[ServiceVar] == (if ServiceVar in env then env[ServiceVar] else Basename(r.program))
      && forall k :: k in env && k != PythonPathVar && k != ServiceVar ==> r.env[k] == env[k]
  {
    var b := JoinPath(Dirname(ddtraceFile), "bootstrap");
    var env1 := AddBootstrap(env, b);
    if |argv| < 2 then Usage(env1)
    else
      var prog := Resolve(argv[1], if PathVar in env1 then Some(env1[PathVar]) else None, exe);
      var env2 := if ServiceVar in env1 then env1 else env1[ServiceVar := Basename(prog)];
      Exec(env2, prog, [prog] + argv[2..])
  }

  /** A program given by bare name gets that name as its service, whichever
      PATH entry it was found in, unless a service name was already set. */
  lemma ServiceNamedAfterProgram(env: Env, argv: seq<string>, ddtraceFile: string, exe: string -> bool)
    requires |argv| >= 2 && '/' !in argv[1] && ServiceVar !in env
    ensures Main(env, argv, ddtraceFile, exe).env[ServiceVar] == argv[1]
  {
    var prog := argv[1];
    var path := if PathVar in env then Some(env[PathVar]) else None;
    var dirs := Split(path.GetOr(""), PathSep);
    var i := FirstExecutable(SearchPaths(dirs, prog), exe, 0);
    if i >= 0 {
      JoinBasename(dirs[i], prog);
    }
  }
}

=== FILE: fake_clock.dfy ===
/** The fake clock the test suite patches over `time.time`: every reading
    first advances the time by a fixed step and then returns it. Seconds are
    modelled as exact reals. */
module FakeClock {

  datatype Clock = Clock(current: real, delta: real)

  /** A clock as constructed: epoch 1e9 seconds, step one millisecond. */
  const Default: Clock := Clock(1000000000.0, 0.001)

  /** A reading and the clock left behind by it. */
  datatype Reading = Reading(time: real, clock: Clock)

  /** Calling the clock: add the step, then return the new time. */
  function Now(c: Clock): (r: Reading)
    ensures r.time - c.current == c.delta
    ensures r.clock.current == r.time
    ensures r.clock.delta == c.delta
  {
    var t := c.current + c.delta;
    Reading(t, c.(current := t))
  }

  /** `set_epoch`: only the current time changes. */
  function SetEpoch(c: Clock, epoch: real): (c': Clock)
    ensures c'.current == epoch && c'.delta == c.delta
  {
    c.(current := epoch)
  }

  /** `set_delta`: only the step changes. */
  function SetDelta(c: Clock, delta: real): (c': Clock)
    ensures c'.delta == delta && c'.current == c.current
  {
    c.(delta := delta)
  }

  /** `sleep`: the time moves by exactly the given seconds, without a step. */
  function Sleep(c: Clock, seconds: real): (c': Clock)
    ensures c'.current - c.current == seconds && c'.delta == c.delta
  {
    c.(current := c.current + seconds)
  }

  /** The values returned by `n` successive calls. */
  function Readings(c: Clock, n: nat): (r: seq<real>)
    ensures |r| == n
    decreases n
  {
    if n == 0 then [] else var r := Now(c); [r.time] + Readings(r.clock, n - 1)
  }

  /** The i-th of n successive calls returns the start time plus i+1 steps. */
  lemma {:induction false} ReadingsAreArithmetic(c: Clock, n: nat)
    ensures forall i :: 0 <= i < n ==> Readings(c, n)[i] == c.current + (i + 1) as real * c.delta
    decreases n
  {
    if n > 0 {
      var r := Now(c);
      ReadingsAreArithmetic(r.clock, n - 1);
      forall i | 0 <= i < n
        ensures Readings(c, n)[i] == c.current + (i + 1) as real * c.delta
      {
        if i > 0 {
          assert Readings(c, n)[i] == Readings(r.clock, n - 1)[i - 1];
        }
      }
    }
  }

  /** Successive readings differ by exactly the step, whatever its sign. */
  lemma ReadingsStep(c: Clock, n: nat)
    ensures forall i :: 0 <= i < n - 1 ==> Readings(c, n)[i + 1] - Readings(c, n)[i] == c.delta
  {
    ReadingsAreArithmetic(c, n);
    forall i | 0 <= i < n - 1
      ensures Readings(c, n)[i + 1] - Readings(c, n)[i] == c.delta
    {
      var k := (i + 1) as real;
      assert (k + 1.0) * c.delta == k * c.delta + c.delta;
    }
  }

  /** With a positive step, successive readings increase by exactly the step. */
  lemma SuccessiveReadingsIncrease(c: Clock, n: nat)
    requires c.delta > 0.0
    ensures forall i :: 0 <= i < n - 1 ==>
      Readings(c, n)[i] < Readings(c, n)[i + 1] && Readings(c, n)[i + 1] - Readings(c, n)[i] == c.delta
  {
    ReadingsStep(c, n);
  }

  /** After `set_epoch(e)`, the i-th reading is e plus i+1 of the unchanged
      steps: the clock restarts from e and keeps its step. */
  lemma SetEpochReadings(c: Clock, epoch: real, n: nat)
    ensures forall i :: 0 <= i < n ==> Readings(SetEpoch(c, epoch), n)[i] == epoch + (i + 1) as real * c.delta
  {
    ReadingsAreArithmetic(SetEpoch(c, epoch), n);
  }

  /** After `set_delta(d)`, the first reading is the unchanged time plus d and
      successive readings differ by exactly d. */
  lemma SetDeltaReadings(c: Clock, delta: real, n: nat)
    ensures n > 0 ==> Readings(SetDelta(c, delta), n)[0] == c.current + delta
    ensures forall i :: 0 <= i < n - 1 ==>
      Readings(SetDelta(c, delta), n)[i + 1] - Readings(SetDelta(c, delta), n)[i] == delta
  {
    ReadingsStep(SetDelta(c, delta), n);
  }

  /** A fresh clock's first reading is the epoch plus one step. */
  lemma DefaultFirstReading()
    ensures Now(Default).time == 1000000000.001
  {
  }

  /** Sleeping advances the next reading by the slept time plus one step only. */
  lemma SleepThenRead(c: Clock, seconds: real)
    ensures Now(Sleep(c, seconds)).time == c.current + seconds + c.delta
  {
  }
}

=== FILE: results.dfy ===
/** Optional values and fallible results, used where the Python code has
    `None` or raises an exception that its caller handles. */
module Results {

  datatype Option<+T> = None | Some(value: T) {
    /** The value, or `default` when there is none. */
    function GetOr(default: T): T {
      match this
      case Some(v) => v
      case None => default
    }
  }

  datatype Result<+T, +E> = Success(value: T) | Failure(error: E)

  /** How a piece of Python code ended: it returned a value or raised an
      exception, described by its message. */
  datatype Outcome<+T> = Returned(value: T) | Raised(message: string)
}

=== FILE: strings.dfy ===
/** Python `str` operations on one-character arguments, over `seq<char>`:
    `split`, `'sep'.join`, `strip`, `replace` and an ASCII `lower`. */
module Strings {

  /** `s.split(c)`: the maximal runs of `s` between occurrences of `c`,
      always at least one (possibly empty) field. */
  function Split(s: string, c: char): (r: seq<string>)
    ensures |r| >= 1
    ensures forall i :: 0 <= i < |r| ==> c !in r[i]
    decreases |s|
  {
    if |s| == 0 then [""]
    else
      var rest := Split(s[1..], c);
      if s[0] == c then [""] + rest
      else [[s[0]] + rest[0]] + rest[1..]
  }

  /** `c.join(parts)`. */
  function Join(parts: seq<string>, c: char): string
    decreases |parts|
  {
    if |parts| == 0 then ""
    else if |parts| == 1 then parts[0]
    else parts[0] + [c] + Join(parts[1..], c)
  }

  /** Splitting and joining again on the same separator gives back the string. */
  lemma {:induction false} JoinSplit(s: string, c: char)
    ensures Join(Split(s, c), c) == s
    decreases |s|
  {
    if |s| > 0 {
      JoinSplit(s[1..], c);
      var rest := Split(s[1..], c);
      if s[0] == c {
        assert s == [c] + s[1..];
      } else {
        var r := [[s[0]] + rest[0]] + rest[1..];
        if |rest| == 1 {
          assert s == [s[0]] + s[1..];
        } else {
          assert r[1..] == rest[1..];
          assert s == [s[0]] + (rest[0] + [c] + Join(rest[1..], c));
        }
      }
    }
  }

  /** A string free of the separator splits into itself alone. */
  lemma {:induction false} SplitWithout(s: string, c: char)
    requires c !in s
    ensures Split(s, c) == [s]
    decreases |s|
  {
    if |s| > 0 {
      assert c !in s[1..];
      SplitWithout(s[1..], c);
      assert s == [s[0]] + s[1..];
    }
  }

  /** A leading separator-free field `a` followed by `c` is the first field. */
  lemma {:induction false} SplitAfterField(a: string, c: char, b: string)
    requires c !in a
    ensures Split(a + [c] + b, c) == [a] + Split(b, c)
    decreases |a|
  {
    if |a| == 0 {
      assert a + [c] + b == [c] + b;
      assert ([c] + b)[1..] == b;
    } else {
      var s := a + [c] + b;
      assert s[0] == a[0] && s[1..] == a[1..] + [c] + b;
      assert c !in a[1..];
      SplitAfterField(a[1..], c, b);
      assert [a[0]] + a[1..] == a;
    }
  }

  /** There are at least two fields exactly when the separator occurs. */
  lemma {:induction false} SplitCount(s: string, c: char)
    ensures |Split(s, c)| >= 2 <==> c in s
    decreases |s|
  {
    if |s| > 0 {
      SplitCount(s[1..], c);
      assert c in s <==> s[0] == c || c in s[1..];
    }
  }

  /** The first field is the longest separator-free prefix of `s`. */
  lemma {:induction false} SplitFirst(s: string, c: char)
    ensures |Split(s, c)[0]| <= |s|
    ensures Split(s, c)[0] == s[..|Split(s, c)[0]|]
    ensures |Split(s, c)[0]| < |s| ==> s[|Split(s, c)[0]|] == c
    decreases |s|
  {
    if |s| > 0 {
      SplitFirst(s[1..], c);
    }
  }

  /** When the separator occurs, the fields after the first are the fields of
      what follows its first occurrence. */
  lemma {:induction false} SplitRest(s: string, c: char)
    requires c in s
    ensures |Split(s, c)[0]| < |s|
    ensures Split(s, c)[1..] == Split(s[|Split(s, c)[0]| + 1..], c)
    decreases |s|
  {
    if s[0] != c {
      assert c in s[1..] by {
        var j :| 0 <= j < |s| && s[j] == c;
        assert s[1..][j - 1] == c;
      }
      SplitRest(s[1..], c);
      var rest := Split(s[1..], c);
      assert Split(s, c)[1..] == rest[1..];
      assert s[1..][|rest[0]| + 1..] == s[|Split(s, c)[0]| + 1..];
    }
  }

  /** Removes every leading occurrence of `c`. */
  function TrimLeft(s: string, c: char): (r: string)
    ensures |r| <= |s| && r == s[|s| - |r|..]
    ensures |r| > 0 ==> r[0] != c
    ensures forall i :: 0 <= i < |s| - |r| ==> s[i] == c
    decreases |s|
  {
    if |s| > 0 && s[0] == c then TrimLeft(s[1..], c) else s
  }

  /** Removes every trailing occurrence of `c`. */
  function TrimRight(s: string, c: char): (r: string)
    ensures |r| <= |s| && r == s[..|r|]
    ensures |r| > 0 ==> r[|r| - 1] != c
    ensures forall i :: |r| <= i < |s| ==> s[i] == c
    decreases |s|
  {
    if |s| > 0 && s[|s| - 1] == c then TrimRight(s[..|s| - 1], c) else s
  }

  /** `s.strip(c)`: `s` without the runs of `c` at either end. */
  function Strip(s: string, c: char): (r: string)
    ensures |r| == 0 || (r[0] != c && r[|r| - 1] != c)
    ensures var k := |s| - |TrimLeft(s, c)|;
      && k + |r| <= |s|
      && r == s[k..k + |r|]
      && (forall i :: 0 <= i < k ==> s[i] == c)
      && (forall i :: k + |r| <= i < |s| ==> s[i] == c)
  {
    TrimRight(TrimLeft(s, c), c)
  }

  /** Stripping a string whose ends are not `c` leaves it unchanged. */
  lemma StripNoop(s: string, c: char)
    requires |s| == 0 || (s[0] != c && s[|s| - 1] != c)
    ensures Strip(s, c) == s
  {
  }

  /** Stripping a string that does not contain `c` leaves it unchanged. */
  lemma StripAbsent(s: string, c: char)
    requires c !in s
    ensures Strip(s, c) == s
  {
    StripNoop(s, c);
  }

  /** `s.replace(a, b)` for single characters. */
  function ReplaceChar(s: string, a: char, b: char): (r: string)
    ensures |r| == |s|
    ensures forall i :: 0 <= i < |s| ==> r[i] == (if s[i] == a then b else s[i])
    decreases |s|
  {
    if |s| == 0 then ""
    else [if s[0] == a then b else s[0]] + ReplaceChar(s[1..], a, b)
  }

  /** Replacing a character that does not occur changes nothing. */
  lemma ReplaceAbsent(s: string, a: char, b: char)
    requires a !in s
    ensures ReplaceChar(s, a, b) == s
  {
    assert forall i :: 0 <= i < |s| ==> ReplaceChar(s, a, b)[i] == s[i];
  }

  /** ASCII case mapping of one character. */
  function LowerChar(ch: char): char {
    if 'A' <= ch <= 'Z' then (ch as int + 32) as char else ch
  }

  /** `s.lower()` restricted to ASCII letters. */
  function LowerAscii(s: string): (r: string)
    ensures |r| == |s|
    ensures forall i :: 0 <= i < |s| ==> r[i] == LowerChar(s[i])
    decreases |s|
  {
    if |s| == 0 then "" else [LowerChar(s[0])] + LowerAscii(s[1..])
  }

  /** Lower-casing is idempotent. */
  lemma LowerAsciiIdempotent(s: string)
    ensures LowerAscii(LowerAscii(s)) == LowerAscii(s)
  {
    var l := LowerAscii(s);
    assert forall i :: 0 <= i < |l| ==> LowerAscii(l)[i] == l[i];
  }

  /** Index of the last occurrence of `c` in `s`, or -1 (`s.rfind(c)`). */
  function RFind(s: string, c: char): (r: int)
    ensures -1 <= r < |s|
    ensures r >= 0 ==> s[r] == c
    ensures forall i :: r < i < |s| ==> s[i] != c
    decreases |s|
  {
    if |s| == 0 then -1
    else if s[|s| - 1] == c then |s| - 1
    else RFind(s[..|s| - 1], c)
  }
}

=== FILE: test_writer.dfy ===
/** The buffering writer the test suite installs in place of the agent
    writer: it keeps every written span in memory until it is popped. */
module TestWriter {

  /** Service name to its descriptive metadata (app name, app type). */
  type Services = map<string, map<string, string>>

  /** Spans written since the last pop, in write order, and the service map
      from the last `write_services`. */
  datatype Writer<T> = Writer(spans: seq<T>, services: Services)

  /** A writer as constructed: nothing buffered, no services, so either pop
      hands out nothing and leaves the writer as it was. */
  function Empty<T>(): (r: Writer<T>)
    ensures Pop(r).value == [] && Pop(r).writer == r
    ensures PopServices(r).value == map[] && PopServices(r).writer == r
  {
    Writer([], map[])
  }

  /** `write_trace`: the trace's spans go after what is already buffered. */
  function WriteTrace<T>(w: Writer<T>, trace: seq<T>): (w': Writer<T>)
    ensures |w'.spans| == |w.spans| + |trace|
    ensures w'.spans[..|w.spans|] == w.spans
    ensures w'.spans[|w.spans|..] == trace
    ensures w'.services == w.services
  {
    w.(spans := w.spans + trace)
  }

  /** `write_services`: the given map replaces the stored one. */
  function WriteServices<T>(w: Writer<T>, services: Services): (w': Writer<T>)
    ensures w'.services == services
    ensures w'.spans == w.spans
  {
    w.(services := services)
  }

  /** What a pop returns together with the writer it leaves behind. */
  datatype Popped<T, X> = Popped(value: X, writer: Writer<T>)

  /** `pop`: hands out the buffered spans and empties the buffer. */
  function Pop<T>(w: Writer<T>): (r: Popped<T, seq<T>>)
    ensures r.value == w.spans
    ensures r.writer.spans == []
    ensures r.writer.services == w.services
  {
    Popped(w.spans, w.(spans := []))
  }

  /** `pop_services`: hands out the service map and resets it to empty. */
  function PopServices<T>(w: Writer<T>): (r: Popped<T, Services>)
    ensures r.value == w.services
    ensures r.writer.services == map[]
    ensures r.writer.spans == w.spans
  {
    Popped(w.services, w.(services := map[]))
  }

  /** Writes several traces one after the other. */
  function WriteAll<T>(w: Writer<T>, traces: seq<seq<T>>): Writer<T>
    decreases |traces|
  {
    if |traces| == 0 then w else WriteAll(WriteTrace(w, traces[0]), traces[1..])
  }

  /** All spans of a list of traces, in order. */
  function Flatten<T>(traces: seq<seq<T>>): seq<T>
    decreases |traces|
  {
    if |traces| == 0 then [] else traces[0] + Flatten(traces[1..])
  }

  /** Writing traces appends their spans in order and leaves services alone. */
  lemma {:induction false} WriteAllAppends<T>(w: Writer<T>, traces: seq<seq<T>>)
    ensures WriteAll(w, traces).spans == w.spans + Flatten(traces)
    ensures WriteAll(w, traces).services == w.services
    decreases |traces|
  {
    if |traces| > 0 {
      WriteAllAppends(WriteTrace(w, traces[0]), traces[1..]);
      assert w.spans + traces[0] + Flatten(traces[1..]) == w.spans + Flatten(traces);
    }
  }

  /** A pop returns exactly the spans of the traces written since the
      previous pop, in write order. */
  lemma PopReturnsWritesSincePop<T>(w: Writer<T>, traces: seq<seq<T>>)
    ensures Pop(WriteAll(Pop(w).writer, traces)).value == Flatten(traces)
  {
    WriteAllAppends(Pop(w).writer, traces);
  }

  /** A second pop straight after a pop returns nothing. */
  lemma PopTwiceIsEmpty<T>(w: Writer<T>)
    ensures Pop(Pop(w).writer).value == []
    ensures Pop(Pop(w).writer).writer == Pop(w).writer
  {
  }

  /** Two `write_services` calls keep only the second map: no key of the
      first survives unless the second has it. */
  lemma WriteServicesReplaces<T>(w: Writer<T>, first: Services, second: Services)
    ensures PopServices(WriteServices(WriteServices(w, first), second)).value == second
    ensures forall k :: k in first && k !in second ==>
      k !in PopServices(WriteServices(WriteServices(w, first), second)).value
  {
  }

  /** A second `pop_services` straight after the first returns `{}`. */
  lemma PopServicesTwiceIsEmpty<T>(w: Writer<T>)
    ensures PopServices(PopServices(w).writer).value == map[]
  {
  }
}

=== FILE: tornado_handler.dfy ===
/** The Tornado integration's per-request handler state. `TraceApp` replaces
    six methods of every handler class with wrappers; each wrapper updates
    the handler's tracing fields, calls the original method, and finishes
    spans at set points. The spans themselves come from the tracer engine,
    so here a span is a plain record and "finishing" it is an event in the
    handler's log, interleaved with the calls of the original methods. */
module TornadoHandler {
  import opened Results
  import opened Strings

  /** `http.TYPE`, `http.TEMPLATE`, `http.URL`, `http.STATUS_CODE` and
      `errors.ERROR_MSG` of the ext constants. */
  const HttpType := "http"
  const TemplateType := "template"
  const UrlTag := "http.url"
  const StatusTag := "http.status_code"
  const ErrorMsgTag := "error.msg"
  const TemplateTag := "tornado.template"

  /** A tag value: `set_tag` is given both strings and status codes. */
  datatype TagValue = Text(text: string) | Number(number: int)

  /** The `context` argument handed to `tracer.trace`: `None` or one of the
      `Context` objects, told apart by a serial number. */
  datatype Ctx = NoContext | Ctx(serial: nat)

  /** A span a wrapper opens, as the wrapper describes it: the arguments it
      passes to `tracer.trace` (name, service, resource, span type,
      context), the tags it sets and its error flag. The tracer's own
      defaults are not applied: an absent or empty resource is not replaced
      by the name, and an absent service is not taken from a parent span. */
  datatype HSpan = HSpan(
    id: nat,
    name: string,
    service: Option<string>,
    resource: Option<string>,
    spanType: string,
    context: Ctx,
    meta: map<string, TagValue>,
    error: int)

  /** The original handler methods the wrappers delegate to. */
  datatype Call =
    | Prepare
    | OnFinish
    | Clear
    | SetStatus(code: int, reason: Option<string>)
    | Render(template: string)
    | RenderString(template: string)

  /** What the handler did, in order: a call of an original method, or a
      span being finished. */
  datatype Event = Original(call: Call) | Finished(span: HSpan)

  /** The tracing fields of one handler object. `context` is `None` while
      `_datadog_request_context` was never assigned (reading it then
      raises), and `Some(NoContext)` once it has been reset to `None`.
      `getattr(..., None)` cannot tell an unset span field from one set to
      `None`, so the span fields are plain options. `nextId` numbers the
      contexts and spans this handler creates. */
  datatype Handler = Handler(
    context: Option<Ctx>,
    requestSpan: Option<HSpan>,
    renderSpan: Option<HSpan>,
    nextId: nat,
    log: seq<Event>)

  function NewHandler(): Handler {
    Handler(None, None, None, 0, [])
  }

  /** A wrapper's result: the handler afterwards and the value the wrapper
      returns. */
  datatype Reply<T> = Reply(handler: Handler, value: T)

  /** The request span's resource: the URI stripped of '/' at both ends,
      every other '/' replaced by '_', lower-cased. */
  function Resource(uri: string): (r: string)
    ensures |r| == |Strip(uri, '/')|
    ensures forall i :: 0 <= i < |r| ==>
      r[i] == LowerChar(if Strip(uri, '/')[i] == '/' then '_' else Strip(uri, '/')[i])
  {
    LowerAscii(ReplaceChar(Strip(uri, '/'), '/', '_'))
  }

  /** The resource never contains '/'. */
  lemma ResourceHasNoSlash(uri: string)
    ensures '/' !in Resource(uri)
  {
    var r := Resource(uri);
    forall i | 0 <= i < |r|
      ensures r[i] != '/'
    {
    }
  }

  /** Deriving the resource of a resource gives it back. */
  lemma ResourceIdempotent(uri: string)
    ensures Resource(Resource(uri)) == Resource(uri)
  {
    var r := Resource(uri);
    ResourceHasNoSlash(uri);
    StripAbsent(r, '/');
    ReplaceAbsent(r, '/', '_');
    LowerAsciiIdempotent(ReplaceChar(Strip(uri, '/'), '/', '_'));
  }

  /** What `prepare` can run into before the original is called. */
  datatype PrepareFault =
    | NoFault
    | BeforeContext   // creating the `Context` fails
    | AfterContext    // the context is stored, opening or tagging the span fails

  /** `prepare`: a fresh context is stored, a "tornado.request" span is
      opened in it with the application's service, the resource derived
      from the URI, span type "http" and the URL tag, and stored. A failure
      on the way is swallowed (logged) and the original `prepare` is called
      regardless; its result is the wrapper's result. */
  function WrappedPrepare<T>(h: Handler, service: string, uri: string, fault: PrepareFault, result: T): (r: Reply<T>)
    ensures r.value == result
    ensures r.handler.log == h.log + [Original(Prepare)]
    ensures r.handler.renderSpan == h.renderSpan
    ensures fault == BeforeContext ==> r.handler.context == h.context && r.handler.requestSpan == h.requestSpan
    ensures fault != BeforeContext ==> r.handler.context == Some(Ctx(h.nextId)) && r.handler.nextId > h.nextId
    ensures fault == AfterContext ==> r.handler.requestSpan == h.requestSpan
    ensures fault == NoFault ==>
      && r.handler.requestSpan.Some?
      && var s := r.handler.requestSpan.value;
      && s.name == "tornado.request" && s.service == Some(service)
      && s.resource == Some(Resource(uri)) && s.spanType == HttpType
      && s.context == Ctx(h.nextId) && s.meta == map[UrlTag := Text(uri)] && s.error == 0
      && s.id >= h.nextId && s.id < r.handler.nextId
  {
    var traced :=
      match fault
      case BeforeContext => h
      case AfterContext => h.(context := Some(Ctx(h.nextId)), nextId := h.nextId + 1)
      case NoFault =>
        var ctx := Ctx(h.nextId);
        var span := HSpan(h.nextId + 1, "tornado.request", Some(service), Some(Resource(uri)),
                          HttpType, ctx, map[UrlTag := Text(uri)], 0);
        h.(context := Some(ctx), requestSpan := Some(span), nextId := h.nextId + 2);
    Reply(traced.(log := traced.log + [Original(Prepare)]), result)
  }

  /** Each request prepared on a handler gets its own context. */
  lemma PrepareFreshContext(h: Handler, service: string, uri1: string, uri2: string)
    ensures var r1 := WrappedPrepare(h, service, uri1, NoFault, 0).handler;
            var r2 := WrappedPrepare(r1, service, uri2, NoFault, 0).handler;
      r1.context.Some? && r2.context.Some? && r1.context != r2.context
  {
  }

  /** `set_status(code, reason)`: with a request span, its status tag
      becomes the code, its error flag is set exactly when 400 <= code < 600,
      and the error message tag is set only when a reason is given; without
      one nothing changes. The original is called either way. */
  function WrappedSetStatus(h: Handler, code: int, reason: Option<string>): (r: Handler)
    ensures r.log == h.log + [Original(SetStatus(code, reason))]
    ensures r.context == h.context && r.renderSpan == h.renderSpan && r.nextId == h.nextId
    ensures h.requestSpan.None? ==> r.requestSpan == None
    ensures h.requestSpan.Some? ==>
      && r.requestSpan.Some?
      && var s := h.requestSpan.value;
         var s' := r.requestSpan.value;
      && (s'.error == 1 <==> 400 <= code < 600)
      && (s'.error == 0 <==> !(400 <= code < 600))
      && StatusTag in s'.meta && s'.meta[StatusTag] == Number(code)
      && (reason.Some? ==> ErrorMsgTag in s'.meta && s'.meta[ErrorMsgTag] == Text(reason.value))
      && (forall k :: k in s.meta && k != StatusTag && (reason.None? || k != ErrorMsgTag) ==>
            k in s'.meta && s'.meta[k] == s.meta[k])
      && s'.meta.Keys == s.meta.Keys + {StatusTag} + (if reason.Some? then {ErrorMsgTag} else {})
      && s' == s.(meta := s'.meta, error := s'.error)
  {
    var spanned :=
      match h.requestSpan
      case None => h
      case Some(s) =>
        var tagged := s.meta[StatusTag := Number(code)];
        var meta := if reason.Some? then tagged[ErrorMsgTag := Text(reason.value)] else tagged;
        h.(requestSpan := Some(s.(meta := meta, error := if 400 <= code < 600 then 1 else 0)));
    spanned.(log := spanned.log + [Original(SetStatus(code, reason))])
  }

  /** `clear()`: with a request span, its error flag is reset and its status
      tag set back to 200; without one nothing changes. The original is
      called either way. */
  function WrappedClear(h: Handler): (r: Handler)
    ensures r.log == h.log + [Original(Clear)]
    ensures r.context == h.context && r.renderSpan == h.renderSpan && r.nextId == h.nextId
    ensures h.requestSpan.None? ==> r.requestSpan == None
    ensures h.requestSpan.Some? ==>
      && r.requestSpan.Some?
      && var s := h.requestSpan.value;
         var s' := r.requestSpan.value;
      && s'.error == 0 && StatusTag in s'.meta && s'.meta[StatusTag] == Number(200)
      && s'.meta.Keys == s.meta.Keys + {StatusTag}
      && (forall k :: k in s.meta && k != StatusTag ==> s'.meta[k] == s.meta[k])
      && s' == s.(meta := s'.meta, error := 0)
  {
    var spanned :=
      match h.requestSpan
      case None => h
      case Some(s) => h.(requestSpan := Some(s.(error := 0, meta := s.meta[StatusTag := Number(200)])));
    spanned.(log := spanned.log + [Original(Clear)])
  }

  /** After an error status, `clear` leaves the request span as if no
      status had been set but 200. */
  lemma ClearAfterErrorStatus(h: Handler, code: int, reason: Option<string>)
    requires h.requestSpan.Some?
    ensures var s := WrappedClear(WrappedSetStatus(h, code, reason)).requestSpan.value;
      s.error == 0 && s.meta[StatusTag] == Number(200)
  {
  }

  /** `on_finish()`: a render span, if any, is finished and dropped; then the
      original `on_finish` is called; then the request span, if any, is
      finished and dropped together with the context. */
  function WrappedOnFinish(h: Handler): (r: Handler)
    ensures r.log == h.log
      + (if h.renderSpan.Some? then [Finished(h.renderSpan.value)] else [])
      + [Original(OnFinish)]
      + (if h.requestSpan.Some? then [Finished(h.requestSpan.value)] else [])
    ensures r.renderSpan == None && r.requestSpan == None && r.nextId == h.nextId
    ensures r.context == if h.requestSpan.Some? then Some(NoContext) else h.context
  {
    var rendered :=
      match h.renderSpan
      case None => h
      case Some(s) => h.(renderSpan := None, log := h.log + [Finished(s)]);
    var called := rendered.(log := rendered.log + [Original(OnFinish)]);
    match called.requestSpan
    case None => called
    case Some(s) => called.(requestSpan := None, context := Some(NoContext), log := called.log + [Finished(s)])
  }

  /** How many times `s` is finished in a log. */
  function FinishCount(log: seq<Event>, s: HSpan): (n: nat)
    ensures n <= |log|
    ensures n == 0 <==> Finished(s) !in log
  {
    if |log| == 0 then 0
    else FinishCount(log[..|log| - 1], s) + (if log[|log| - 1] == Finished(s) then 1 else 0)
  }

  lemma {:induction false} FinishCountAppend(a: seq<Event>, b: seq<Event>, s: HSpan)
    ensures FinishCount(a + b, s) == FinishCount(a, s) + FinishCount(b, s)
    decreases |b|
  {
    if |b| == 0 {
      assert a + b == a;
    } else {
      assert (a + b)[..|a + b| - 1] == a + b[..|b| - 1];
      FinishCountAppend(a, b[..|b| - 1], s);
    }
  }

  /** A second `on_finish` only calls the original again: each span is
      finished at most once, however often `on_finish` runs. */
  lemma OnFinishTwice(h: Handler)
    ensures WrappedOnFinish(WrappedOnFinish(h)).log == WrappedOnFinish(h).log + [Original(OnFinish)]
  {
  }

  /** The spans a handler holds are the ones its wrappers opened under
      these names. */
  ghost predicate Named(h: Handler) {
    && (h.renderSpan.Some? ==> h.renderSpan.value.name == "tornado.render")
    && (h.requestSpan.Some? ==> h.requestSpan.value.name == "tornado.request")
  }

  /** On a log where `s` was not finished yet, `on_finish` run twice
      finishes `s` at most once. */
  lemma {:induction false} OnFinishTwiceAtMostOnce(h: Handler, s: HSpan)
    requires Named(h) && Finished(s) !in h.log
    ensures FinishCount(WrappedOnFinish(WrappedOnFinish(h)).log, s) <= 1
  {
    var once := WrappedOnFinish(h);
    OnFinishTwice(h);
    FinishCountAppend(once.log, [Original(OnFinish)], s);
    assert [Original(OnFinish)][..0] == [];
    OnFinishAtMostOnce(h, s);
  }

  /** On a log where `s` was not finished yet, one `on_finish` finishes `s`
      at most once. */
  lemma {:induction false} OnFinishAtMostOnce(h: Handler, s: HSpan)
    requires Named(h) && Finished(s) !in h.log
    ensures FinishCount(WrappedOnFinish(h).log, s) <= 1
  {
    var a := if h.renderSpan.Some? then [Finished(h.renderSpan.value)] else [];
    var m := [Original(OnFinish)];
    var b := if h.requestSpan.Some? then [Finished(h.requestSpan.value)] else [];
    assert WrappedOnFinish(h).log == h.log + (a + m + b);
    FinishCountAppend(h.log, a + m + b, s);
    AroundOriginalAtMostOnce(a, b, s);
  }

  /** The events `on_finish` appends, a render finish then the original call
      then a request finish, finish any one span at most once. */
  lemma AroundOriginalAtMostOnce(a: seq<Event>, b: seq<Event>, s: HSpan)
    requires |a| <= 1 && (|a| == 1 ==> a[0].Finished? && a[0].span.name == "tornado.render")
    requires |b| <= 1 && (|b| == 1 ==> b[0].Finished? && b[0].span.name == "tornado.request")
    ensures FinishCount(a + [Original(OnFinish)] + b, s) <= 1
  {
    var m := [Original(OnFinish)];
    FinishCountAppend(a + m, b, s);
    FinishCountAppend(a, m, s);
    FinishCountOne(Original(OnFinish), s);
    if |a| == 1 { FinishCountOne(a[0], s); } else { assert a == []; }
    if |b| == 1 { FinishCountOne(b[0], s); } else { assert b == []; }
  }

  /** A one-event log counts a finish of `s` exactly when the event is one. */
  lemma FinishCountOne(e: Event, s: HSpan)
    ensures FinishCount([e], s) == if e == Finished(s) then 1 else 0
  {
    assert [e][..0] == [];
  }

  /** `render(template)`: a "tornado.render" span of type "template" is
      opened in the stored context, tagged with the template name and kept
      on the handler, still open, for `on_finish`; then the original is
      called. Reading the context raises when `prepare` never stored one. */
  function WrappedRender(h: Handler, template: string): (r: Result<Handler, string>)
    ensures h.context.None? <==> r.Failure?
    ensures r.Success? ==>
      && r.value.log == h.log + [Original(Render(template))]
      && r.value.requestSpan == h.requestSpan && r.value.context == h.context
      && r.value.renderSpan.Some?
      && var s := r.value.renderSpan.value;
      && s.name == "tornado.render" && s.spanType == TemplateType && s.context == h.context.value
      && s.service == None && s.resource == None && s.error == 0
      && s.meta == map[TemplateTag := Text(template)]
      && h.nextId <= s.id < r.value.nextId
  {
    match h.context
    case None => Failure("AttributeError: _datadog_request_context")
    case Some(ctx) =>
      var s := HSpan(h.nextId, "tornado.render", None, None, TemplateType, ctx,
                     map[TemplateTag := Text(template)], 0);
      Success(h.(renderSpan := Some(s), nextId := h.nextId + 1, log := h.log + [Original(Render(template))]))
  }

  /** `render_string(template)`: a "tornado.render_string" span is opened
      in the stored context and tagged, the original runs inside it, and the
      span is finished, marked failed if the original raised, before the
      original's outcome is handed back. The handler's span fields are left
      alone. */
  function WrappedRenderString<T>(h: Handler, template: string, original: Outcome<T>): (r: Result<Reply<Outcome<T>>, string>)
    ensures h.context.None? <==> r.Failure?
    ensures r.Success? ==>
      && var h' := r.value.handler;
      && r.value.value == original
      && h'.requestSpan == h.requestSpan && h'.renderSpan == h.renderSpan && h'.context == h.context
      && |h'.log| == |h.log| + 2 && h'.log[..|h.log|] == h.log
      && h'.log[|h.log|] == Original(RenderString(template))
      && h'.log[|h.log| + 1].Finished?
      && var s := h'.log[|h.log| + 1].span;
      && s.name == "tornado.render_string" && s.spanType == TemplateType && s.context == h.context.value
      && s.meta == map[TemplateTag := Text(template)]
      && (s.error == 1 <==> original.Raised?)
      && h.nextId <= s.id < h'.nextId
  {
    match h.context
    case None => Failure("AttributeError: _datadog_request_context")
    case Some(ctx) =>
      var s := HSpan(h.nextId, "tornado.render_string", None, None, TemplateType, ctx,
                     map[TemplateTag := Text(template)], if original.Raised? then 1 else 0);
      var log := h.log + [Original(RenderString(template)), Finished(s)];
      Success(Reply(h.(nextId := h.nextId + 1, log := log), original))
  }

  /** `render_string` between `prepare` and `on_finish` adds only its own
      call and span to the log: what `on_finish` then finishes, and in which
      order, is what it would have finished without it, and it leaves the
      same context behind. */
  lemma RenderStringKeepsOnFinish<T>(h: Handler, template: string, original: Outcome<T>)
    requires h.context.Some?
    ensures var rs := WrappedRenderString(h, template, original).value.handler;
      && WrappedOnFinish(rs).log == rs.log + WrappedOnFinish(h).log[|h.log|..]
      && WrappedOnFinish(rs).context == WrappedOnFinish(h).context
      && WrappedOnFinish(rs).requestSpan == None && WrappedOnFinish(rs).renderSpan == None
  {
    var rs := WrappedRenderString(h, template, original).value.handler;
    var tail := WrappedOnFinish(h).log[|h.log|..];
    assert WrappedOnFinish(h).log == h.log + tail;
  }

  /** The whole life of a rendered request: `prepare`, `set_status`,
      `render`, `on_finish`. The render span is finished after the original
      `render` and before the original `on_finish`; the request span,
      carrying the status and its error flag, is finished last; nothing is
      left on the handler. */
  lemma RenderedRequest(service: string, uri: string, code: int, template: string)
    ensures var p := WrappedPrepare(NewHandler(), service, uri, NoFault, 0).handler;
            var st := WrappedSetStatus(p, code, None);
            var rd := WrappedRender(st, template);
      && rd.Success?
      && var f := WrappedOnFinish(rd.value);
      && f.requestSpan == None && f.renderSpan == None && f.context == Some(NoContext)
      && |f.log| == 6
      && f.log[0] == Original(Prepare)
      && f.log[1] == Original(SetStatus(code, None))
      && f.log[2] == Original(Render(template))
      && f.log[3].Finished? && f.log[3].span.name == "tornado.render"
      && f.log[4] == Original(OnFinish)
      && f.log[5].Finished? && f.log[5].span.name == "tornado.request"
      && f.log[5].span.resource == Some(Resource(uri))
      && f.log[5].span.meta[StatusTag] == Number(code)
      && (f.log[5].span.error == 1 <==> 400 <= code < 600)
      && f.log[3].span.context == f.log[5].span.context
  {
    PreparedAndRendered(service, uri, code, template);
    var p := WrappedPrepare(NewHandler(), service, uri, NoFault, 0).handler;
    var h := WrappedRender(WrappedSetStatus(p, code, None), template).value;
    OnFinishBoth(h);
  }

  /** `on_finish` with both spans held logs the render span's finish, the
      original call and the request span's finish, in that order. */
  lemma OnFinishBoth(h: Handler)
    requires h.requestSpan.Some? && h.renderSpan.Some?
    ensures var f := WrappedOnFinish(h);
      && f.log == h.log + [Finished(h.renderSpan.value), Original(OnFinish), Finished(h.requestSpan.value)]
      && f.requestSpan == None && f.renderSpan == None && f.context == Some(NoContext)
  {
  }

  /** After `prepare`, `set_status` and `render`, both spans are held open
      in the same context and the request span carries the status. */
  lemma PreparedAndRendered(service: string, uri: string, code: int, template: string)
    ensures var p := WrappedPrepare(NewHandler(), service, uri, NoFault, 0).handler;
            var rd := WrappedRender(WrappedSetStatus(p, code, None), template);
      && rd.Success?
      && var h := rd.value;
      && h.log == [Original(Prepare), Original(SetStatus(code, None)), Original(Render(template))]
      && h.requestSpan.Some? && h.renderSpan.Some?
      && h.renderSpan.value.name == "tornado.render"
      && h.requestSpan.value.name == "tornado.request"
      && h.requestSpan.value.resource == Some(Resource(uri))
      && StatusTag in h.requestSpan.value.meta
      && h.requestSpan.value.meta[StatusTag] == Number(code)
      && (h.requestSpan.value.error == 1 <==> 400 <= code < 600)
      && h.renderSpan.value.context == h.requestSpan.value.context
  {
  }
}

=== FILE: tracer_scenarios.dfy ===
/** The tracer test suite's scenarios replayed against the tracer model,
    each stated for any idle tracer rather than only a fresh one. */
module TracerScenarios {
  import opened Results
  import opened Tracing
  import TestWriter

  /** The tracer's writer after `tracer.writer.pop()`. */
  function AfterPop(t: Tracer): (t': Tracer)
    requires Valid(t)
    ensures Valid(t') && t'.writer.spans == []
    ensures t' == t.(writer := TestWriter.Pop(t.writer).writer)
  {
    t.(writer := TestWriter.Pop(t.writer).writer)
  }

  /** Explicit service, resource and span type are kept as given. */
  lemma ExplicitAttributesKept(t: Tracer, name: string, service: string, resource: string, spanType: string)
    requires Valid(t) && service != "" && resource != ""
    ensures var o := Trace(t, name, Some(service), Some(resource), Some(spanType));
      && o.tracer.spans[o.id].service == Some(service)
      && o.tracer.spans[o.id].resource == resource
      && o.tracer.spans[o.id].spanType == Some(spanType)
  {
  }

  /** With nothing given, a root span has no service and no span type and
      its resource is its name; this holds again after a finished trace. */
  lemma DefaultAttributes(t: Tracer, name: string)
    requires Valid(t) && |t.stack| == 0
    ensures var t1 := Trace(t, name, Some("s"), Some("r"), Some("t"));
            var t2 := Finish(t1.tracer, t1.id);
            var o := Trace(t2, name, None, None, None);
      && o.tracer.spans[o.id].service == None
      && o.tracer.spans[o.id].resource == name
      && o.tracer.spans[o.id].spanType == None
  {
    var t1 := Trace(t, name, Some("s"), Some("r"), Some("t"));
    assert IndexOf(t1.tracer.stack, t1.id) == 0;
  }

  /** The work inside "cake.mix" and "cake.bake": a sleep, which leaves the
      tracer alone. */
  function Sleep(): (w: Work)
    ensures KeepsValid(w)
  {
    Inert(Returned(0))
  }

  /** Opening "cake.make" and giving it service "baker" and resource "cake". */
  function OpenMake(t: Tracer): (o: Opened)
    requires Valid(t)
    ensures Valid(o.tracer)
  {
    var make := Trace(t, "cake.make", None, None, None);
    Opened(SetResource(SetService(make.tracer, make.id, Some("baker")), make.id, "cake"), make.id)
  }

  lemma OpenMakeRoot(t: Tracer)
    requires Valid(t) && |t.stack| == 0
    ensures var o := OpenMake(t);
            o.id in o.tracer.spans
    ensures var o := OpenMake(t);
            var s := o.tracer.spans[o.id];
      && o.tracer.stack == [o.id] && o.tracer.trace == []
      && o.tracer.writer == t.writer && o.tracer.enabled == t.enabled
      && s.spanId == o.id && o.id > 0 && s.name == "cake.make" && s.parentId == None
      && s.service == Some("baker") && s.resource == "cake"
      && t.nextId <= s.traceId < o.tracer.nextId && s.traceId > 0
  {
  }

  /** `_mix()` then `_bake()`, each a span around a sleep. */
  function MixThenBake(t: Tracer): (t': Tracer)
    requires Valid(t)
    ensures Valid(t')
  {
    var mix := With(t, "cake.mix", None, None, None, Sleep());
    With(mix.tracer, "cake.bake", None, None, None, Sleep()).tracer
  }

  /** Inside an open span, mix and bake add two finished children of the
      current span, in that order, that inherit its trace id and service
      and default their resource to their name. */
  lemma MixThenBakeChildren(t: Tracer)
    requires Valid(t) && |t.stack| > 0
    ensures var r := MixThenBake(t);
            var p := t.spans[t.stack[|t.stack| - 1]];
            var n := |t.trace|;
      && r.stack == t.stack && r.writer == t.writer && r.enabled == t.enabled && r.nextId > t.nextId
      && |r.trace| == n + 2 && r.trace[..n] == t.trace
      && (forall x :: x in t.spans ==> x in r.spans && r.spans[x] == t.spans[x])
      && r.trace[n] in r.spans && r.trace[n + 1] in r.spans
      && var mix := r.spans[r.trace[n]];
         var bake := r.spans[r.trace[n + 1]];
      && mix.name == "cake.mix" && bake.name == "cake.bake"
      && mix.parentId == Some(p.spanId) && bake.parentId == Some(p.spanId)
      && mix.traceId == p.traceId && bake.traceId == p.traceId
      && mix.service == p.service && bake.service == p.service
      && mix.resource == mix.name && bake.resource == bake.name
  {
    SleepChild(t, "cake.mix");
    var u := With(t, "cake.mix", None, None, None, Sleep()).tracer;
    SleepChild(u, "cake.bake");
    TwoChildren(t, u, MixThenBake(t), "cake.mix", "cake.bake");
  }

  /** `r` is `t` with one more finished span, named `name`, added to the
      trace in progress as a child of the current span, inheriting its trace
      id and service and defaulting its resource to its name. */
  ghost predicate ChildAdded(t: Tracer, r: Tracer, name: string) {
    && |t.stack| > 0 && t.stack[|t.stack| - 1] in t.spans
    && var p := t.spans[t.stack[|t.stack| - 1]];
    && r.stack == t.stack && r.writer == t.writer && r.enabled == t.enabled && r.nextId > t.nextId
    && |r.trace| == |t.trace| + 1 && r.trace[..|t.trace|] == t.trace
    && (forall x :: x in t.spans ==> x in r.spans && r.spans[x] == t.spans[x])
    && r.trace[|t.trace|] in r.spans
    && var s := r.spans[r.trace[|t.trace|]];
    && s.name == name && s.parentId == Some(p.spanId) && s.traceId == p.traceId
    && s.service == p.service && s.resource == name && s.finished
  }

  /** A span around a sleep inside an open span adds one child. */
  lemma SleepChild(t: Tracer, name: string)
    requires Valid(t) && |t.stack| > 0
    ensures ChildAdded(t, With(t, name, None, None, None, Sleep()).tracer, name)
  {
    WithInertChild(t, name, None, None, None, Returned(0));
  }

  /** Two children added one after the other are both children of the span
      that was current before either. */
  lemma TwoChildren(t: Tracer, u: Tracer, r: Tracer, first: string, second: string)
    requires ChildAdded(t, u, first) && ChildAdded(u, r, second)
    ensures var p := t.spans[t.stack[|t.stack| - 1]];
            var n := |t.trace|;
      && r.stack == t.stack && r.writer == t.writer && r.enabled == t.enabled && r.nextId > t.nextId
      && |r.trace| == n + 2 && r.trace[..n] == t.trace
      && (forall x :: x in t.spans ==> x in r.spans && r.spans[x] == t.spans[x])
      && r.trace[n] in r.spans && r.trace[n + 1] in r.spans
      && var a := r.spans[r.trace[n]];
         var b := r.spans[r.trace[n + 1]];
      && a.name == first && b.name == second
      && a.parentId == Some(p.spanId) && b.parentId == Some(p.spanId)
      && a.traceId == p.traceId && b.traceId == p.traceId
      && a.service == p.service && b.service == p.service
      && a.resource == a.name && b.resource == b.name
  {
    assert r.trace[..|u.trace|] == u.trace;
    assert r.trace[..|t.trace|] == u.trace[..|t.trace|];
  }

  /** `_make_cake`: "cake.make" is opened and given service "baker" and
      resource "cake", then "cake.mix" and "cake.bake" run one after the
      other inside it, and "cake.make" finishes. */
  function MakeCake(t: Tracer): (t': Tracer)
    requires Valid(t)
    ensures Valid(t') && t'.enabled == t.enabled
  {
    var o := OpenMake(t);
    Finish(MixThenBake(o.tracer), o.id)
  }

  /** Running `_make_cake` on an idle enabled tracer writes exactly three
      spans: the root "cake.make" last, with no parent, and its two children
      before it, each parented to it, sharing its trace id, inheriting its
      service and defaulting their resource to their name. The trace id is
      drawn during the run. */
  lemma MakeCakeTrace(t: Tracer)
    requires Valid(t) && |t.stack| == 0 && t.enabled
    ensures CakeWritten(t, MakeCake(t))
  {
    var o := OpenMake(t);
    CakeMixedAndBaked(t);
    CakeFinished(MixThenBake(o.tracer), o.id, t.writer);
  }

  /** Before "cake.make" finishes, mix and bake sit in the pending trace. */
  lemma CakeMixedAndBaked(t: Tracer)
    requires Valid(t) && |t.stack| == 0 && t.enabled
    ensures var o := OpenMake(t);
            var u := MixThenBake(o.tracer);
      && CakeReady(u, o.id, t.writer)
      && t.nextId <= u.spans[o.id].traceId < u.nextId
  {
    OpenMakeRoot(t);
    var o := OpenMake(t);
    MixThenBakeChildren(o.tracer);
    var u := MixThenBake(o.tracer);
    assert u.spans[o.id] == o.tracer.spans[o.id];
  }

  /** The tracer state just before "cake.make" is finished: it alone is on
      the stack and mix and bake are finished beneath it. */
  ghost predicate CakeReady(u: Tracer, m: SpanId, w0: TestWriter.Writer<Span>) {
    && Valid(u) && u.stack == [m] && |u.trace| == 2 && u.enabled && u.writer == w0
    && m in u.spans && u.trace[0] in u.spans && u.trace[1] in u.spans
    && var make := u.spans[m];
       var mix := u.spans[u.trace[0]];
       var bake := u.spans[u.trace[1]];
    && make.spanId == m && m > 0 && make.name == "cake.make" && make.parentId == None
    && make.service == Some("baker") && make.resource == "cake" && make.traceId > 0
    && mix.name == "cake.mix" && bake.name == "cake.bake"
    && mix.parentId == Some(m) && bake.parentId == Some(m)
    && mix.traceId == make.traceId && bake.traceId == make.traceId
    && mix.service == Some("baker") && bake.service == Some("baker")
    && mix.resource == mix.name && bake.resource == bake.name
  }

  /** `t'` is `t` after one `_make_cake`: three spans appended to the
      writer, shaped as the test checks them, under a freshly drawn trace id. */
  ghost predicate CakeWritten(t: Tracer, t': Tracer) {
    var n := |t.writer.spans|;
    && t'.stack == [] && |t'.writer.spans| == n + 3
    && t'.writer.spans[..n] == t.writer.spans
    && CakeShaped(t'.writer.spans[n..])
    && t.nextId <= t'.writer.spans[n + 2].traceId < t'.nextId
  }

  /** The three spans of one `_make_cake`, as the test checks them. */
  ghost predicate CakeShaped(w: seq<Span>) {
    && |w| == 3
    && var mix := w[0];
       var bake := w[1];
       var make := w[2];
    && mix.name == "cake.mix" && bake.name == "cake.bake" && make.name == "cake.make"
    && make.parentId == None && make.spanId > 0 && make.traceId > 0
    && mix.parentId == Some(make.spanId) && bake.parentId == Some(make.spanId)
    && mix.traceId == make.traceId && bake.traceId == make.traceId
    && make.service == Some("baker") && mix.service == make.service && bake.service == make.service
    && make.resource == "cake" && mix.resource == mix.name && bake.resource == bake.name
  }

  /** Finishing "cake.make" after mix and bake writes the three spans. */
  lemma CakeFinished(u: Tracer, m: SpanId, w0: TestWriter.Writer<Span>)
    requires CakeReady(u, m, w0)
    ensures var f := Finish(u, m);
            var n := |w0.spans|;
      && f.stack == [] && |f.writer.spans| == n + 3 && f.nextId == u.nextId
      && f.writer.spans[..n] == w0.spans
      && CakeShaped(f.writer.spans[n..])
      && f.writer.spans[n + 2].traceId == u.spans[m].traceId
  {
    var x, b := u.trace[0], u.trace[1];
    assert u.trace == [x, b];
    FinishTop(u, m);
    var f := Finish(u, m);
    var written := [f.spans[x], f.spans[b], f.spans[m]];
    assert Records(f.spans, u.trace + [m]) == written;
    assert f.writer.spans == w0.spans + written;
    assert f.writer.spans[|w0.spans|..] == written;
  }

  /** No span of `a` shares a trace id with a span of `b`. */
  ghost predicate TraceIdsDisjoint(a: seq<Span>, b: seq<Span>) {
    forall i, j :: 0 <= i < |a| && 0 <= j < |b| ==> a[i].traceId != b[j].traceId
  }

  /** Two cakes in a row, the writer popped in between, land in different
      traces. */
  lemma CakesApart(t: Tracer, first: Tracer, second: Tracer)
    requires CakeWritten(t, first) && second.writer.spans != []
    requires CakeWritten(first.(writer := TestWriter.Writer([], first.writer.services)), second)
    ensures |second.writer.spans| == 3
    ensures TraceIdsDisjoint(first.writer.spans[|t.writer.spans|..], second.writer.spans)
  {
  }

  /** A second `_make_cake` after a pop gets a trace id different from the
      first one: no span it writes shares a trace with the first cake. */
  lemma SecondCakeNewTraceId(t: Tracer)
    requires Valid(t) && |t.stack| == 0 && t.enabled
    ensures var first := MakeCake(t);
            var second := MakeCake(AfterPop(first));
      && CakeWritten(t, first) && CakeWritten(AfterPop(first), second)
      && TraceIdsDisjoint(first.writer.spans[|t.writer.spans|..], second.writer.spans)
  {
    MakeCakeTrace(t);
    var first := MakeCake(t);
    MakeCakeTrace(AfterPop(first));
    CakesApart(t, first, MakeCake(AfterPop(first)));
  }

  /** A body that sets a tag on `tracer.current_span()` and returns. With no
      current span, `current_span()` is `None` and the `set_tag` call raises
      before anything changes. */
  function TagCurrent(key: string, value: string): (w: Work)
    ensures KeepsValid(w)
    ensures forall u {:trigger w(u)} :: Valid(u) && CurrentSpan(u).Some? ==>
      w(u) == Step(SetTag(u, CurrentSpan(u).value, key, value), Returned(0))
    ensures forall u {:trigger w(u)} :: Valid(u) && CurrentSpan(u).None? ==>
      w(u).tracer == u && w(u).outcome.Raised?
  {
    (u: Tracer) requires Valid(u) =>
      match CurrentSpan(u)
      case Some(id) => Step(SetTag(u, id, key, value), Returned(0))
      case None => Step(u, Raised("AttributeError: 'NoneType' object has no attribute 'set_tag'"))
  }

  /** A function wrapped with an explicit name, service, resource and span
      type that tags the current span writes one span carrying all of them
      and the tag. */
  lemma WrapExplicitWithTag(t: Tracer, name: string, f: PyFunction, service: string,
                            resource: string, spanType: string, key: string, value: string)
    requires Valid(t) && |t.stack| == 0 && t.enabled && name != "" && service != "" && resource != ""
    ensures var r := Wrap(t, Some(name), f, Some(service), Some(resource), Some(spanType), TagCurrent(key, value));
            var n := |t.writer.spans|;
      && |r.tracer.writer.spans| == n + 1
      && var s := r.tracer.writer.spans[n];
      && s.name == name && s.service == Some(service) && s.resource == resource
      && s.spanType == Some(spanType) && key in s.meta && s.meta[key] == value
  {
    WrapExplicitIsWith(t, name, f, Some(service), Some(resource), Some(spanType), TagCurrent(key, value));
    var o := Trace(t, name, Some(service), Some(resource), Some(spanType));
    TaggedRoot(t, name, service, resource, spanType, key, value);
    WithBalanced(t, name, Some(service), Some(resource), Some(spanType), TagCurrent(key, value));
    var b := TagCurrent(key, value)(o.tracer);
    var r := With(t, name, Some(service), Some(resource), Some(spanType), TagCurrent(key, value));
    ClosedRoot(t.writer, o.id, b.tracer, r.tracer, if b.outcome.Raised? then 1 else b.tracer.spans[o.id].error);
  }

  /** Closing the root `id` of an enabled tracer `b` with nothing else
      waiting writes exactly that span, finished, after what `w0` held. */
  lemma ClosedRoot(w0: TestWriter.Writer<Span>, id: SpanId, b: Tracer, r: Tracer, e: int)
    requires b.trace == [] && b.writer == w0 && id in b.spans
    requires r.spans == b.spans[id := b.spans[id].(finished := true, error := e)]
    requires r.writer == TestWriter.WriteTrace(b.writer, Records(r.spans, b.trace + [id]))
    ensures |r.writer.spans| == |w0.spans| + 1
    ensures r.writer.spans[|w0.spans|] == b.spans[id].(finished := true, error := e)
  {
    assert Records(r.spans, [id]) == [r.spans[id]];
  }

  /** With a non-empty explicit name, the wrapped call is a span of that
      name around the body. */
  lemma WrapExplicitIsWith(t: Tracer, name: string, f: PyFunction, service: Option<string>,
                           resource: Option<string>, spanType: Option<string>, body: Work)
    requires Valid(t) && KeepsValid(body) && name != ""
    ensures Wrap(t, Some(name), f, service, resource, spanType, body)
         == With(t, name, service, resource, spanType, body)
  {
  }

  /** Inside a freshly opened root span, the tagging body leaves the stack
      alone and puts the tag on that span, which keeps its attributes. */
  lemma TaggedRoot(t: Tracer, name: string, service: string, resource: string, spanType: string,
                   key: string, value: string)
    requires Valid(t) && |t.stack| == 0 && service != "" && resource != ""
    ensures var o := Trace(t, name, Some(service), Some(resource), Some(spanType));
            var b := TagCurrent(key, value)(o.tracer).tracer;
      && b.stack == o.tracer.stack && b.enabled == t.enabled && b.trace == [] && b.writer == t.writer
      && o.id in b.spans
      && var s := b.spans[o.id];
      && s.name == name && s.service == Some(service) && s.resource == resource
      && s.spanType == Some(spanType) && key in s.meta && s.meta[key] == value
  {
    var o := Trace(t, name, Some(service), Some(resource), Some(spanType));
    assert CurrentSpan(o.tracer) == Some(o.id);
  }

  /** Without an explicit name, or with an empty one, the span is named
      "module.function". */
  lemma WrapDefaultName(t: Tracer, name: Option<string>, f: PyFunction, v: int)
    requires Valid(t) && |t.stack| == 0 && t.enabled && !Truthy(name)
    ensures var r := Wrap(t, name, f, None, None, None, Inert(Returned(v)));
      r.tracer.writer.spans == t.writer.spans + [r.tracer.writer.spans[|t.writer.spans|]]
      && r.tracer.writer.spans[|t.writer.spans|].name == f.moduleName + "." + f.name
  {
    WithInertRoot(t, f.moduleName + "." + f.name, None, None, None, Returned(v));
  }

  /** Three wrapped methods called one after the other (the static, class
      and instance methods of one class) return their values and write three
      spans named "module.method" in call order, whatever class they belong
      to. */
  lemma WrapClassMethods(t: Tracer, fs: PyFunction, fc: PyFunction, fi: PyFunction)
    requires Valid(t) && |t.stack| == 0 && t.enabled
    ensures var r1 := Wrap(t, None, fs, None, None, None, Inert(Returned(1)));
            var r2 := Wrap(r1.tracer, None, fc, None, None, None, Inert(Returned(2)));
            var r3 := Wrap(r2.tracer, None, fi, None, None, None, Inert(Returned(3)));
            var n := |t.writer.spans|;
      && r1.outcome == Returned(1) && r2.outcome == Returned(2) && r3.outcome == Returned(3)
      && |r3.tracer.writer.spans| == n + 3
      && r3.tracer.writer.spans[n].name == fs.moduleName + "." + fs.name
      && r3.tracer.writer.spans[n + 1].name == fc.moduleName + "." + fc.name
      && r3.tracer.writer.spans[n + 2].name == fi.moduleName + "." + fi.name
  {
    WithInertRoot(t, WrapName(None, fs), None, None, None, Returned(1));
    var r1 := Wrap(t, None, fs, None, None, None, Inert(Returned(1)));
    WithInertRoot(r1.tracer, WrapName(None, fc), None, None, None, Returned(2));
    var r2 := Wrap(r1.tracer, None, fc, None, None, None, Inert(Returned(2)));
    WithInertRoot(r2.tracer, WrapName(None, fi), None, None, None, Returned(3));
  }

  /** A wrapped function that raises still writes its span, marked failed,
      and the exception comes back out of the call. */
  lemma WrapException(t: Tracer, f: PyFunction, message: string)
    requires Valid(t) && |t.stack| == 0 && t.enabled
    ensures var r := Wrap(t, None, f, None, None, None, Inert(Raised(message)));
      && r.outcome == Raised(message)
      && |r.tracer.writer.spans| == |t.writer.spans| + 1
      && r.tracer.writer.spans[|t.writer.spans|].error == 1
  {
    WithInertRoot(t, f.moduleName + "." + f.name, None, None, None, Raised(message));
  }

  /** Two calls of the same wrapped function write two spans with distinct
      span ids. */
  lemma WrapTwiceDistinctIds(t: Tracer, f: PyFunction)
    requires Valid(t) && |t.stack| == 0 && t.enabled
    ensures var r1 := Wrap(t, None, f, None, None, None, Inert(Returned(0)));
            var r2 := Wrap(r1.tracer, None, f, None, None, None, Inert(Returned(0)));
            var n := |t.writer.spans|;
      && |r2.tracer.writer.spans| == n + 2
      && r2.tracer.writer.spans[n].spanId != r2.tracer.writer.spans[n + 1].spanId
  {
    var name := f.moduleName + "." + f.name;
    WithInertRoot(t, name, None, None, None, Returned(0));
    var r1 := Wrap(t, None, f, None, None, None, Inert(Returned(0)));
    WithInertRoot(r1.tracer, name, None, None, None, Returned(0));
    var o1 := Trace(t, name, None, None, None);
    var o2 := Trace(r1.tracer, name, None, None, None);
    assert o1.id < r1.tracer.nextId <= o2.id;
  }

  /** The inner function of the nesting test: wrapped as "inner", inert. */
  function Inner(f: PyFunction): (w: Work)
    ensures KeepsValid(w)
    ensures forall u {:trigger w(u)} :: Valid(u) ==>
      w(u) == Wrap(u, Some("inner"), f, None, None, None, Inert(Returned(0)))
  {
    (u: Tracer) requires Valid(u) => Wrap(u, Some("inner"), f, None, None, None, Inert(Returned(0)))
  }

  /** The outer function's body: `with tracer.trace('mid'): inner()`. */
  function MidThenInner(f: PyFunction): (w: Work)
    ensures KeepsValid(w)
    ensures forall u {:trigger w(u)} :: Valid(u) ==> w(u) == With(u, "mid", None, None, None, Inner(f))
  {
    (u: Tracer) requires Valid(u) => With(u, "mid", None, None, None, Inner(f))
  }

  /** Inside an open span, `inner()` adds one finished child of the current
      span, named "inner", to the trace in progress. */
  lemma InnerChild(v: Tracer, f: PyFunction)
    requires Valid(v) && |v.stack| > 0
    ensures ChildAdded(v, Inner(f)(v).tracer, "inner")
  {
    InnerIsWith(v, f);
    WithInertChild(v, "inner", None, None, None, Returned(0));
  }

  /** `inner()` is a span named "inner" around inert work. */
  lemma InnerIsWith(v: Tracer, f: PyFunction)
    requires Valid(v)
    ensures Inner(f)(v) == With(v, "inner", None, None, None, Inert(Returned(0)))
  {
    assert Truthy(Some("inner"));
  }

  /** Inside an open span, `with tracer.trace('mid'): inner()` adds two
      finished spans to the trace in progress: "inner", a child of "mid",
      then "mid", a child of the current span. */
  lemma MidChild(u: Tracer, f: PyFunction)
    requires Valid(u) && |u.stack| > 0
    ensures MidAdded(u, MidThenInner(f)(u).tracer)
  {
    MidIsWith(u, f);
    var mo := Trace(u, "mid", None, None, None);
    var v := mo.tracer;
    InnerChild(v, f);
    WithBalanced(u, "mid", None, None, None, Inner(f));
    var b := Inner(f)(v);
    MidOver(u, v, b.tracer, MidThenInner(f)(u).tracer, mo.id,
            if b.outcome.Raised? then 1 else b.tracer.spans[mo.id].error);
  }

  /** `r` is `u` with two more finished spans on the trace in progress:
      "inner", a child of "mid", then "mid", a child of the current span of
      `u`, which stays current; nothing `u` held changes. */
  ghost predicate MidAdded(u: Tracer, r: Tracer) {
    && |u.stack| > 0 && u.stack[|u.stack| - 1] in u.spans
    && var p := u.spans[u.stack[|u.stack| - 1]];
    && var n := |u.trace|;
    && r.stack == u.stack && r.writer == u.writer && r.enabled == u.enabled
    && |r.trace| == n + 2 && r.trace[..n] == u.trace
    && (forall x :: x in u.spans ==> x in r.spans && r.spans[x] == u.spans[x])
    && r.trace[n] in r.spans && r.trace[n + 1] in r.spans
    && var inner := r.spans[r.trace[n]];
    && var mid := r.spans[r.trace[n + 1]];
    && inner.name == "inner" && mid.name == "mid"
    && mid.parentId == Some(p.spanId) && inner.parentId == Some(mid.spanId)
    && mid.traceId == p.traceId && inner.traceId == p.traceId
  }

  /** `v` is `u` with a new span `mid`, named "mid", pushed as a child of
      the current span. */
  ghost predicate MidOpened(u: Tracer, v: Tracer, mid: SpanId) {
    && |u.stack| > 0 && u.stack[|u.stack| - 1] in u.spans
    && var p := u.spans[u.stack[|u.stack| - 1]];
    && mid !in u.spans && mid in v.spans
    && (forall x :: x in u.spans ==> x in v.spans && v.spans[x] == u.spans[x])
    && v.stack == u.stack + [mid] && v.trace == u.trace && v.writer == u.writer && v.enabled == u.enabled
    && var m := v.spans[mid];
    && m.spanId == mid && m.name == "mid" && m.parentId == Some(p.spanId) && m.traceId == p.traceId
  }

  /** Opening "mid", adding one child "inner" under it and closing "mid"
      leaves "inner" then "mid" on the trace in progress, nested in that
      order under the span that was current. */
  lemma MidOver(u: Tracer, v: Tracer, b: Tracer, r: Tracer, mid: SpanId, e: int)
    requires MidOpened(u, v, mid) && ChildAdded(v, b, "inner")
    requires mid in b.spans
    requires && r.stack == u.stack && r.enabled == b.enabled && r.writer == b.writer
             && r.trace == b.trace + [mid]
             && r.spans == b.spans[mid := b.spans[mid].(finished := true, error := e)]
    ensures MidAdded(u, r)
  {
    assert r.trace[..|u.trace|] == b.trace[..|u.trace|];
    assert b.trace[|u.trace|] != mid;
  }

  /** The outer body is a span named "mid" around `inner()`. */
  lemma MidIsWith(u: Tracer, f: PyFunction)
    requires Valid(u)
    ensures MidThenInner(f)(u) == With(u, "mid", None, None, None, Inner(f))
  {
  }

  /** Nested wrapped calls: outer's span is the root, "mid" is its child and
      "inner" is mid's child; all three are written, innermost first. */
  lemma WrapNesting(t: Tracer, f: PyFunction, g: PyFunction)
    requires Valid(t) && |t.stack| == 0 && t.enabled
    ensures var r := Wrap(t, Some("outer"), g, None, None, None, MidThenInner(f));
            var n := |t.writer.spans|;
      && |r.tracer.writer.spans| == n + 3
      && var inner := r.tracer.writer.spans[n];
         var mid := r.tracer.writer.spans[n + 1];
         var outer := r.tracer.writer.spans[n + 2];
      && inner.name == "inner" && mid.name == "mid" && outer.name == "outer"
      && outer.parentId == None
      && mid.parentId == Some(outer.spanId)
      && inner.parentId == Some(mid.spanId)
  {
    OuterIsWith(t, f, g);
    var oo := Trace(t, "outer", None, None, None);
    OuterBody(t, f);
    WithBalanced(t, "outer", None, None, None, MidThenInner(f));
    var b := MidThenInner(f)(oo.tracer).tracer;
    var r := With(t, "outer", None, None, None, MidThenInner(f)).tracer;
    NestedRecords(t.writer, oo.id, b, r);
  }

  /** Inside the freshly opened root "outer", the outer body leaves the root
      open and "inner" then "mid" waiting on the trace in progress, nested
      under it. */
  lemma OuterBody(t: Tracer, f: PyFunction)
    requires Valid(t) && |t.stack| == 0
    ensures var oo := Trace(t, "outer", None, None, None);
            var b := MidThenInner(f)(oo.tracer).tracer;
      && b.stack == oo.tracer.stack && b.enabled == t.enabled && b.writer == t.writer
      && |b.trace| == 2 && oo.id in b.spans && b.trace[0] in b.spans && b.trace[1] in b.spans
      && var outer := b.spans[oo.id];
         var inner := b.spans[b.trace[0]];
         var mid := b.spans[b.trace[1]];
      && outer.spanId == oo.id && outer.name == "outer" && outer.parentId == None && !outer.finished
      && inner.name == "inner" && mid.name == "mid"
      && mid.parentId == Some(outer.spanId) && inner.parentId == Some(mid.spanId)
  {
    var oo := Trace(t, "outer", None, None, None);
    var u := oo.tracer;
    assert u.stack == [oo.id] && u.trace == [];
    MidChild(u, f);
    OuterAround(u, oo.id, MidThenInner(f)(u).tracer);
  }

  /** `b` is the root `o` of `u` after "mid" and "inner" were added under it. */
  lemma OuterAround(u: Tracer, o: SpanId, b: Tracer)
    requires u.stack == [o] && u.trace == [] && o in u.spans
    requires var s := u.spans[o];
      s.spanId == o && s.name == "outer" && s.parentId == None && !s.finished
    requires MidAdded(u, b)
    ensures && b.stack == u.stack && b.enabled == u.enabled && b.writer == u.writer
      && |b.trace| == 2 && o in b.spans && b.trace[0] in b.spans && b.trace[1] in b.spans
      && var outer := b.spans[o];
         var inner := b.spans[b.trace[0]];
         var mid := b.spans[b.trace[1]];
      && outer.spanId == o && outer.name == "outer" && outer.parentId == None && !outer.finished
      && inner.name == "inner" && mid.name == "mid"
      && mid.parentId == Some(outer.spanId) && inner.parentId == Some(mid.spanId)
  {
  }

  /** The outer call is a span named "outer" around the outer body. */
  lemma OuterIsWith(t: Tracer, f: PyFunction, g: PyFunction)
    requires Valid(t)
    ensures Wrap(t, Some("outer"), g, None, None, None, MidThenInner(f))
         == With(t, "outer", None, None, None, MidThenInner(f))
  {
    assert Truthy(Some("outer"));
  }

  /** Finishing the outer root after mid and inner writes inner, mid and
      outer, in that order, linked child to parent. */
  lemma NestedRecords(w0: TestWriter.Writer<Span>, o: SpanId, b: Tracer, r: Tracer)
    requires |b.trace| == 2 && o in b.spans && b.trace[0] in b.spans && b.trace[1] in b.spans
    requires var outer := b.spans[o];
             var inner := b.spans[b.trace[0]];
             var mid := b.spans[b.trace[1]];
      && outer.spanId == o && outer.name == "outer" && outer.parentId == None
      && inner.name == "inner" && mid.name == "mid"
      && mid.parentId == Some(outer.spanId) && inner.parentId == Some(mid.spanId)
    requires r.spans == b.spans[o := b.spans[o].(finished := true, error := b.spans[o].error)]
    requires r.writer == TestWriter.WriteTrace(w0, Records(r.spans, b.trace + [o]))
    ensures var n := |w0.spans|;
      && |r.writer.spans| == n + 3
      && var inner := r.writer.spans[n];
         var mid := r.writer.spans[n + 1];
         var outer := r.writer.spans[n + 2];
      && inner.name == "inner" && mid.name == "mid" && outer.name == "outer"
      && outer.parentId == None
      && mid.parentId == Some(outer.spanId)
      && inner.parentId == Some(mid.spanId)
  {
    var i, m := b.trace[0], b.trace[1];
    assert b.trace + [o] == [i, m, o];
    assert Records(r.spans, [i, m, o]) == [r.spans[i], r.spans[m], r.spans[o]];
  }

  /** With the tracer enabled a traced block is written; after disabling it
      the same block writes nothing. */
  lemma DisabledWritesNothing(t: Tracer)
    requires Valid(t) && |t.stack| == 0
    ensures var on := With(SetEnabled(t, true), "foo", None, None, None, TagCurrent("a", "b"));
            var off := With(SetEnabled(AfterPop(on.tracer), false), "foo", None, None, None, TagCurrent("a", "b"));
      && TestWriter.Pop(on.tracer.writer).value != []
      && TestWriter.Pop(off.tracer.writer).value == []
  {
    var t1 := SetEnabled(t, true);
    var o := Trace(t1, "foo", None, None, None);
    var b := TagCurrent("a", "b")(o.tracer);
    assert CurrentSpan(o.tracer) == Some(o.id);
    WithBalanced(t1, "foo", None, None, None, TagCurrent("a", "b"));
    var on := With(t1, "foo", None, None, None, TagCurrent("a", "b"));
    ClosedRoot(t1.writer, o.id, b.tracer, on.tracer, if b.outcome.Raised? then 1 else b.tracer.spans[o.id].error);
    var t2 := SetEnabled(AfterPop(on.tracer), false);
    var o2 := Trace(t2, "foo", None, None, None);
    assert CurrentSpan(o2.tracer) == Some(o2.id);
    WithBalanced(t2, "foo", None, None, None, TagCurrent("a", "b"));
  }

  /** A span opened and finished while disabled leaves no current span
      behind, so the next span is a root again; nothing is written. */
  lemma DisabledNoStaleCurrentSpan(t: Tracer)
    requires Valid(t) && |t.stack| == 0
    ensures var d := SetEnabled(t, false);
            var s1 := Trace(d, "foo", None, None, None);
            var f1 := Finish(s1.tracer, s1.id);
            var s2 := Trace(f1, "bar", None, None, None);
            var f2 := Finish(s2.tracer, s2.id);
      && CurrentSpan(f1) == None
      && s2.tracer.spans[s2.id].parentId == None
      && f2.writer == t.writer
  {
    var d := SetEnabled(t, false);
    var s1 := Trace(d, "foo", None, None, None);
    assert IndexOf(s1.tracer.stack, s1.id) == 0;
    var f1 := Finish(s1.tracer, s1.id);
    var s2 := Trace(f1, "bar", None, None, None);
    assert IndexOf(s2.tracer.stack, s2.id) == 0;
  }
}

=== FILE: tracing.dfy ===
/** The tracer's span stack as the test suite observes it: opening a span
    pushes it on the active context, finishing pops it, and finishing the
    root hands the whole trace to the writer. Span and trace ids come from a
    counter instead of a random source. */
module Tracing {
  import opened Results
  import TestWriter

  type SpanId = nat

  datatype Span = Span(
    spanId: SpanId,
    traceId: nat,
    parentId: Option<SpanId>,
    name: string,
    service: Option<string>,
    resource: string,
    spanType: Option<string>,
    error: int,
    meta: map<string, string>,
    finished: bool)

  /** `stack` holds the open spans of the active context, the current one
      last; `trace` holds the spans of the trace in progress that have
      already finished, in finish order; `nextId` is the next unused id. */
  datatype Tracer = Tracer(
    stack: seq<SpanId>,
    spans: map<SpanId, Span>,
    trace: seq<SpanId>,
    nextId: nat,
    enabled: bool,
    writer: TestWriter.Writer<Span>)

  /** A tracer as the test suite builds it: enabled, empty, writing to a
      fresh in-memory writer. */
  function NewTracer(): (r: Tracer)
    ensures Valid(r)
    ensures CurrentSpan(r) == None && r.trace == [] && r.enabled
    ensures r.writer == TestWriter.Empty()
  {
    Tracer([], map[], [], 1, true, TestWriter.Empty())
  }

  /** Python truthiness of an optional string: present and non-empty. */
  predicate Truthy(s: Option<string>) {
    s.Some? && s.value != ""
  }

  ghost predicate WellFormed(t: Tracer, x: SpanId)
    requires x in t.spans
  {
    && 0 < x < t.nextId
    && t.spans[x].spanId == x
    && 0 < t.spans[x].traceId < t.nextId
  }

  /** Every stack entry is a recorded open span, no span is on the stack
      twice, the bottom entry is a root, and every other entry is the child
      of the entry below it and shares the bottom entry's trace id. */
  ghost predicate StackLinked(stack: seq<SpanId>, spans: map<SpanId, Span>) {
    && (forall k :: 0 <= k < |stack| ==> stack[k] in spans && !spans[stack[k]].finished)
    && (forall k, j :: 0 <= k < j < |stack| ==> stack[k] != stack[j])
    && (|stack| > 0 ==> spans[stack[0]].parentId == None)
    && (forall k :: 0 < k < |stack| ==>
          && spans[stack[k]].parentId == Some(stack[k - 1])
          && spans[stack[k]].traceId == spans[stack[0]].traceId)
  }

  /** The tracer's representation invariant: ids are below the counter and
      match their keys, the stack is linked, and the finished spans waiting
      for their root belong to the root's trace. */
  ghost predicate Valid(t: Tracer) {
    && 0 < t.nextId
    && (forall x :: x in t.spans ==> WellFormed(t, x))
    && StackLinked(t.stack, t.spans)
    && (|t.stack| == 0 ==> t.trace == [])
    && (forall x :: x in t.trace ==>
          && |t.stack| > 0 && x in t.spans && t.spans[x].finished
          && t.spans[x].traceId == t.spans[t.stack[0]].traceId)
  }

  /** Linkage only depends on the parent, trace id and finished flag of the
      spans on the stack. */
  lemma StackLinkedFrame(stack: seq<SpanId>, spans: map<SpanId, Span>, spans': map<SpanId, Span>)
    requires StackLinked(stack, spans)
    requires forall k :: 0 <= k < |stack| ==>
      && stack[k] in spans'
      && spans'[stack[k]].parentId == spans[stack[k]].parentId
      && spans'[stack[k]].traceId == spans[stack[k]].traceId
      && spans'[stack[k]].finished == spans[stack[k]].finished
    ensures StackLinked(stack, spans')
  {
  }

  /** Dropping the top part of a linked stack leaves it linked. */
  lemma StackLinkedPrefix(stack: seq<SpanId>, spans: map<SpanId, Span>, i: nat)
    requires StackLinked(stack, spans) && i <= |stack|
    ensures StackLinked(stack[..i], spans)
  {
    var p := stack[..i];
    assert forall k :: 0 <= k < |p| ==> p[k] == stack[k];
  }

  /** Pushing a new open child of the top keeps the stack linked. */
  lemma StackLinkedPush(stack: seq<SpanId>, spans: map<SpanId, Span>, s: Span)
    requires StackLinked(stack, spans) && s.spanId !in spans && !s.finished
    requires |stack| == 0 ==> s.parentId == None
    requires |stack| > 0 ==> s.parentId == Some(stack[|stack| - 1])
                             && s.traceId == spans[stack[0]].traceId
    ensures StackLinked(stack + [s.spanId], spans[s.spanId := s])
  {
    var st := stack + [s.spanId];
    var sp := spans[s.spanId := s];
    assert forall k :: 0 <= k < |stack| ==> st[k] == stack[k] && sp[st[k]] == spans[stack[k]];
  }

  /** `current_span()`: the top of the active context's stack, if any; in a
      valid tracer it is a recorded span that has not finished. */
  function CurrentSpan(t: Tracer): (r: Option<SpanId>)
    ensures r.None? <==> |t.stack| == 0
    ensures r.Some? ==> r.value == t.stack[|t.stack| - 1]
    ensures r.Some? && Valid(t) ==> r.value in t.spans && !t.spans[r.value].finished
  {
    if |t.stack| == 0 then None else Some(t.stack[|t.stack| - 1])
  }

  /** A span just opened and the tracer that holds it. */
  datatype Opened = Opened(tracer: Tracer, id: SpanId)

  /** `trace(name, service, resource, span_type)`: opens a span as a child of
      the current span, or as the root of a new trace when there is none. */
  function Trace(t: Tracer, name: string, service: Option<string>,
                 resource: Option<string>, spanType: Option<string>): (r: Opened)
    requires Valid(t)
    ensures Valid(r.tracer)
    ensures r.id !in t.spans && r.tracer.spans.Keys == t.spans.Keys + {r.id}
    ensures forall x :: x in t.spans ==> r.tracer.spans[x] == t.spans[x]
    ensures r.tracer.stack == t.stack + [r.id]
    ensures CurrentSpan(r.tracer) == Some(r.id)
    ensures r.tracer.trace == t.trace && r.tracer.writer == t.writer
    ensures r.tracer.enabled == t.enabled && r.tracer.nextId > t.nextId
    ensures var s := r.tracer.spans[r.id];
      && s.spanId == r.id && s.name == name && s.spanType == spanType
      && s.resource == (if Truthy(resource) then resource.value else name)
      && s.error == 0 && s.meta == map[] && !s.finished
    ensures var s := r.tracer.spans[r.id];
      |t.stack| == 0 ==>
        && s.parentId == None && s.service == service
        && (forall x :: x in t.spans ==> t.spans[x].traceId != s.traceId)
    ensures var s := r.tracer.spans[r.id];
      |t.stack| > 0 ==>
        var p := t.spans[t.stack[|t.stack| - 1]];
        && s.parentId == Some(p.spanId) && s.traceId == p.traceId
        && s.service == (if Truthy(service) then service else p.service)
  {
    var s := NewSpan(t, name, service, resource, spanType);
    PushValid(t, s);
    Opened(Push(t, s), s.spanId)
  }

  /** The record `trace` creates: a child of the current span inherits its
      trace id and, unless given a truthy service, its service; a root draws
      a fresh trace id and then a fresh span id from the counter. */
  function NewSpan(t: Tracer, name: string, service: Option<string>,
                   resource: Option<string>, spanType: Option<string>): Span
    requires Valid(t)
  {
    var res := if Truthy(resource) then resource.value else name;
    if |t.stack| == 0 then
      Span(t.nextId + 1, t.nextId, None, name, service, res, spanType, 0, map[], false)
    else
      var p := t.spans[t.stack[|t.stack| - 1]];
      var svc := if Truthy(service) then service else p.service;
      Span(t.nextId, p.traceId, Some(p.spanId), name, svc, res, spanType, 0, map[], false)
  }

  /** Records `s`, makes it current and moves the counter past its id. */
  function Push(t: Tracer, s: Span): Tracer {
    t.(stack := t.stack + [s.spanId], spans := t.spans[s.spanId := s], nextId := s.spanId + 1)
  }

  lemma PushValid(t: Tracer, s: Span)
    requires Valid(t)
    requires s.spanId >= t.nextId && 0 < s.traceId <= s.spanId && !s.finished
    requires |t.stack| == 0 ==> s.parentId == None
    requires |t.stack| > 0 ==> s.parentId == Some(t.stack[|t.stack| - 1])
                               && s.traceId == t.spans[t.stack[0]].traceId
    ensures Valid(Push(t, s))
  {
    StackLinkedPush(t.stack, t.spans, s);
    var t' := Push(t, s);
    forall x | x in t'.spans
      ensures WellFormed(t', x)
    {
      if x != s.spanId {
        assert WellFormed(t, x);
      }
    }
  }

  /** Position of `x` in a stack that holds it. */
  function IndexOf(s: seq<SpanId>, x: SpanId): (i: nat)
    requires x in s
    ensures i < |s| && s[i] == x
    ensures forall j :: 0 <= j < i ==> s[j] != x
    decreases |s|
  {
    if s[0] == x then 0 else 1 + IndexOf(s[1..], x)
  }

  /** The records of the given spans, in order. */
  function Records(spans: map<SpanId, Span>, ids: seq<SpanId>): (r: seq<Span>)
    requires forall x :: x in ids ==> x in spans
    ensures |r| == |ids| && forall i :: 0 <= i < |ids| ==> r[i] == spans[ids[i]]
  {
    seq(|ids|, i requires 0 <= i < |ids| => spans[ids[i]])
  }

  /** `span.finish()`. An unknown or already finished span is left alone.
      Otherwise the span is marked finished; if it is on the stack, it and
      everything above it leave the stack, so its parent becomes current.
      When that span is the root, the trace (its finished spans in finish
      order, the root last) goes to the writer if the tracer is enabled and
      is dropped otherwise. A span no longer on the stack is only marked. */
  function Finish(t: Tracer, id: SpanId): (t': Tracer)
    requires Valid(t)
    ensures Valid(t')
    ensures t'.enabled == t.enabled && t'.nextId == t.nextId
    ensures id !in t.spans || t.spans[id].finished ==> t' == t
    ensures id in t.spans && !t.spans[id].finished ==>
      t'.spans == t.spans[id := t.spans[id].(finished := true)]
    ensures id in t.spans && !t.spans[id].finished && id !in t.stack ==>
      t'.stack == t.stack && t'.trace == t.trace && t'.writer == t.writer
    ensures id in t.stack && IndexOf(t.stack, id) > 0 ==>
      && t'.stack == t.stack[..IndexOf(t.stack, id)]
      && CurrentSpan(t') == t.spans[id].parentId
      && t'.trace == t.trace + [id] && t'.writer == t.writer
    ensures id in t.stack && IndexOf(t.stack, id) == 0 ==>
      && t'.stack == [] && t'.trace == []
      && t'.writer == (if t.enabled
                       then TestWriter.WriteTrace(t.writer, Records(t'.spans, t.trace + [id]))
                       else t.writer)
  {
    if id !in t.spans || t.spans[id].finished then t
    else if id !in t.stack then MarkFinished(t, id)
    else
      var i := IndexOf(t.stack, id);
      if i == 0 then CompleteTrace(t) else PopAt(t, i)
  }

  /** Finishing a span that is no longer on the stack only marks it. */
  function MarkFinished(t: Tracer, id: SpanId): (t': Tracer)
    requires Valid(t) && id in t.spans && id !in t.stack
    ensures Valid(t')
    ensures t' == t.(spans := t.spans[id := t.spans[id].(finished := true)])
  {
    var spans := t.spans[id := t.spans[id].(finished := true)];
    StackLinkedFrame(t.stack, t.spans, spans);
    t.(spans := spans)
  }

  /** Finishing the span at position `i > 0` of the stack: it and every span
      above it leave the stack, so its parent becomes current, and it joins
      the trace in progress. */
  function PopAt(t: Tracer, i: nat): (t': Tracer)
    requires Valid(t) && 0 < i < |t.stack|
    ensures Valid(t')
    ensures var id := t.stack[i];
      && t'.spans == t.spans[id := t.spans[id].(finished := true)]
      && t'.stack == t.stack[..i] && CurrentSpan(t') == t.spans[id].parentId
      && t'.trace == t.trace + [id]
      && t'.writer == t.writer && t'.enabled == t.enabled && t'.nextId == t.nextId
  {
    var id := t.stack[i];
    var spans := t.spans[id := t.spans[id].(finished := true)];
    StackLinkedPrefix(t.stack, t.spans, i);
    StackLinkedFrame(t.stack[..i], t.spans, spans);
    t.(spans := spans, stack := t.stack[..i], trace := t.trace + [id])
  }

  /** Finishing the root: the stack empties and the trace, its earlier
      finished spans followed by the root, goes to the writer if the tracer
      is enabled and is dropped otherwise. Every written span is finished
      and carries the root's trace id, and the root has no parent. */
  function CompleteTrace(t: Tracer): (t': Tracer)
    requires Valid(t) && |t.stack| > 0
    ensures Valid(t')
    ensures var id := t.stack[0];
      && t'.spans == t.spans[id := t.spans[id].(finished := true)]
      && t'.stack == [] && t'.trace == [] && t'.enabled == t.enabled && t'.nextId == t.nextId
      && t'.writer == (if t.enabled
                       then TestWriter.WriteTrace(t.writer, Records(t'.spans, t.trace + [id]))
                       else t.writer)
    ensures var id := t.stack[0];
            var written := Records(t'.spans, t.trace + [id]);
      && written[|t.trace|] == t'.spans[id] && t'.spans[id].parentId == None
      && forall k :: 0 <= k < |written| ==>
           written[k].traceId == t.spans[id].traceId && written[k].finished
  {
    var id := t.stack[0];
    var spans := t.spans[id := t.spans[id].(finished := true)];
    var written := Records(spans, t.trace + [id]);
    var w := if t.enabled then TestWriter.WriteTrace(t.writer, written) else t.writer;
    t.(spans := spans, stack := [], trace := [], writer := w)
  }

  /** Applies `f` to the record of an open span; finished or unknown spans
      are left alone. `f` may change descriptive fields only. */
  function Annotate(t: Tracer, id: SpanId, f: Span -> Span): (t': Tracer)
    requires Valid(t)
    requires forall s :: f(s).spanId == s.spanId && f(s).traceId == s.traceId
                      && f(s).parentId == s.parentId && f(s).finished == s.finished
    ensures Valid(t')
    ensures t'.stack == t.stack && t'.trace == t.trace && t'.writer == t.writer
    ensures t'.enabled == t.enabled && t'.nextId == t.nextId
    ensures t'.spans.Keys == t.spans.Keys
    ensures forall x :: x in t.spans && x != id ==> t'.spans[x] == t.spans[x]
    ensures id in t.spans ==>
      t'.spans[id] == if t.spans[id].finished then t.spans[id] else f(t.spans[id])
  {
    if id in t.spans && !t.spans[id].finished then
      var spans := t.spans[id := f(t.spans[id])];
      StackLinkedFrame(t.stack, t.spans, spans);
      t.(spans := spans)
    else t
  }

  /** `span.set_tag(key, value)` on an open span. */
  function SetTag(t: Tracer, id: SpanId, key: string, value: string): (t': Tracer)
    requires Valid(t)
    ensures Valid(t')
    ensures t'.stack == t.stack && t'.trace == t.trace && t'.writer == t.writer
    ensures t'.enabled == t.enabled && t'.nextId == t.nextId
    ensures t'.spans.Keys == t.spans.Keys
    ensures forall x :: x in t.spans && x != id ==> t'.spans[x] == t.spans[x]
    ensures id in t.spans && !t.spans[id].finished ==>
      && t'.spans[id].meta.Keys == t.spans[id].meta.Keys + {key}
      && t'.spans[id].meta[key] == value
      && (forall k :: k in t.spans[id].meta && k != key ==> t'.spans[id].meta[k] == t.spans[id].meta[k])
      && t'.spans[id] == t.spans[id].(meta := t'.spans[id].meta)
  {
    Annotate(t, id, (s: Span) => s.(meta := s.meta[key := value]))
  }

  /** Assigning `span.service` on an open span. */
  function SetService(t: Tracer, id: SpanId, service: Option<string>): (t': Tracer)
    requires Valid(t)
    ensures Valid(t')
    ensures t'.stack == t.stack && t'.trace == t.trace && t'.writer == t.writer
    ensures t'.enabled == t.enabled && t'.nextId == t.nextId
    ensures t'.spans.Keys == t.spans.Keys
    ensures forall x :: x in t.spans && x != id ==> t'.spans[x] == t.spans[x]
    ensures id in t.spans && !t.spans[id].finished ==>
      t'.spans[id] == t.spans[id].(service := service)
  {
    Annotate(t, id, (s: Span) => s.(service := service))
  }

  /** Assigning `span.resource` on an open span. */
  function SetResource(t: Tracer, id: SpanId, resource: string): (t': Tracer)
    requires Valid(t)
    ensures Valid(t')
    ensures t'.stack == t.stack && t'.trace == t.trace && t'.writer == t.writer
    ensures t'.enabled == t.enabled && t'.nextId == t.nextId
    ensures t'.spans.Keys == t.spans.Keys
    ensures forall x :: x in t.spans && x != id ==> t'.spans[x] == t.spans[x]
    ensures id in t.spans && !t.spans[id].finished ==>
      t'.spans[id] == t.spans[id].(resource := resource)
  {
    Annotate(t, id, (s: Span) => s.(resource := resource))
  }

  /** Marking an open span as failed, as leaving a `with` block on an
      exception does. */
  function SetError(t: Tracer, id: SpanId): (t': Tracer)
    requires Valid(t)
    ensures Valid(t')
    ensures t'.stack == t.stack && t'.trace == t.trace && t'.writer == t.writer
    ensures t'.enabled == t.enabled && t'.nextId == t.nextId
    ensures t'.spans.Keys == t.spans.Keys
    ensures forall x :: x in t.spans && x != id ==> t'.spans[x] == t.spans[x]
    ensures id in t.spans && !t.spans[id].finished ==>
      t'.spans[id] == t.spans[id].(error := 1)
  {
    Annotate(t, id, (s: Span) => s.(error := 1))
  }

  /** Assigning `tracer.enabled`. */
  function SetEnabled(t: Tracer, enabled: bool): (t': Tracer)
    requires Valid(t)
    ensures Valid(t') && t'.enabled == enabled
    ensures t' == t.(enabled := enabled)
  {
    t.(enabled := enabled)
  }

  /** The tracer after a unit of work, and how the work ended. */
  datatype Step = Step(tracer: Tracer, outcome: Outcome<int>)

  /** A unit of work run against the tracer: it may open, tag and finish
      spans of its own and must keep the invariant. */
  type Work = Tracer --> Step

  ghost predicate KeepsValid(body: Work) {
    forall u {:trigger body.requires(u)} :: Valid(u) ==> body.requires(u) && Valid(body(u).tracer)
  }

  /** `with tracer.trace(...)`: opens a span, runs the body, marks the span
      failed if the body raised, finishes it, and hands back the body's own
      outcome so that an exception keeps propagating. */
  function With(t: Tracer, name: string, service: Option<string>, resource: Option<string>,
                spanType: Option<string>, body: Work): (r: Step)
    requires Valid(t) && KeepsValid(body)
    ensures Valid(r.tracer)
    ensures r.outcome == body(Trace(t, name, service, resource, spanType).tracer).outcome
  {
    var o := Trace(t, name, service, resource, spanType);
    var b := body(o.tracer);
    Step(Leave(b.tracer, o.id, b.outcome.Raised?), b.outcome)
  }

  /** Leaving a `with` block: the span is marked failed if the block
      raised, then finished. */
  function Leave(t: Tracer, id: SpanId, raised: bool): (t': Tracer)
    requires Valid(t)
    ensures Valid(t')
  {
    Finish(if raised then SetError(t, id) else t, id)
  }

  /** Leaving the block of the current span pops exactly that span, which
      keeps its error flag unless the block raised; the span joins the
      trace in progress or, as the root, completes it. */
  lemma LeaveTop(t: Tracer, id: SpanId, raised: bool)
    requires Valid(t) && |t.stack| > 0 && t.stack[|t.stack| - 1] == id
    ensures var r := Leave(t, id, raised);
            var below := t.stack[..|t.stack| - 1];
            var s := t.spans[id];
      && r.stack == below
      && r.spans == t.spans[id := s.(finished := true, error := if raised then 1 else s.error)]
      && r.enabled == t.enabled && r.nextId == t.nextId
      && (|below| > 0 ==> r.trace == t.trace + [id] && r.writer == t.writer)
      && (|below| == 0 ==>
            && r.trace == []
            && r.writer == (if t.enabled then TestWriter.WriteTrace(t.writer, Records(r.spans, t.trace + [id]))
                            else t.writer))
  {
    var s := t.spans[id];
    if raised {
      var t2 := SetError(t, id);
      assert t2.spans == t.spans[id := s.(error := 1)];
      FinishTop(t2, id);
      assert t2.spans[id := t2.spans[id].(finished := true)] == t.spans[id := s.(finished := true, error := 1)];
    } else {
      FinishTop(t, id);
    }
  }

  /** A function as the decorator sees it: its module, the class it is
      defined in if any, and its own name. */
  datatype PyFunction = PyFunction(moduleName: string, className: Option<string>, name: string)

  /** The name `wrap` gives the span: the explicit one when it is truthy,
      else "module.function", leaving out any class name. */
  function WrapName(name: Option<string>, f: PyFunction): (r: string)
    ensures Truthy(name) ==> r == name.value
    ensures !Truthy(name) ==> |r| == |f.moduleName| + 1 + |f.name| && r[..|f.moduleName|] == f.moduleName
                              && r[|f.moduleName|] == '.' && r[|f.moduleName| + 1..] == f.name
  {
    if Truthy(name) then name.value else f.moduleName + "." + f.name
  }

  /** Calling a function decorated with `tracer.wrap(name, service, resource,
      span_type)`: the call runs inside a span named by `WrapName`. */
  function Wrap(t: Tracer, name: Option<string>, f: PyFunction, service: Option<string>,
                resource: Option<string>, spanType: Option<string>, body: Work): (r: Step)
    requires Valid(t) && KeepsValid(body)
    ensures Valid(r.tracer)
    ensures r == With(t, WrapName(name, f), service, resource, spanType, body)
  {
    With(t, WrapName(name, f), service, resource, spanType, body)
  }

  /** A unit of work that leaves the tracer alone and ends as `outcome`, like
      a function body that only sleeps, returns or raises. */
  function Inert(outcome: Outcome<int>): (w: Work)
    ensures KeepsValid(w)
    ensures forall u {:trigger w(u)} :: Valid(u) ==> w(u) == Step(u, outcome)
  {
    (u: Tracer) requires Valid(u) => Step(u, outcome)
  }

  /** `with` around work that leaves the stack as it found it: the span is
      finished after the work, marked failed iff the work raised, and the
      stack is back to where it was. Whether the trace is written depends
      on the switch as the work left it. Inside an open trace the span joins the
      trace in progress; as a root it completes the trace, which goes to
      the writer iff the tracer is enabled. */
  lemma WithBalanced(t: Tracer, name: string, service: Option<string>, resource: Option<string>,
                     spanType: Option<string>, body: Work)
    requires Valid(t) && KeepsValid(body)
    requires var o := Trace(t, name, service, resource, spanType);
      body(o.tracer).tracer.stack == o.tracer.stack
    ensures var o := Trace(t, name, service, resource, spanType);
            var b := body(o.tracer);
            var r := With(t, name, service, resource, spanType, body);
            var s := b.tracer.spans[o.id];
      && r.outcome == b.outcome
      && r.tracer.stack == t.stack && r.tracer.enabled == b.tracer.enabled && r.tracer.nextId == b.tracer.nextId
      && r.tracer.spans == b.tracer.spans[o.id := s.(finished := true,
                                                     error := if b.outcome.Raised? then 1 else s.error)]
      && (|t.stack| > 0 ==> r.tracer.trace == b.tracer.trace + [o.id] && r.tracer.writer == b.tracer.writer)
      && (|t.stack| == 0 ==>
            && r.tracer.trace == []
            && r.tracer.writer == (if b.tracer.enabled
                                   then TestWriter.WriteTrace(b.tracer.writer, Records(r.tracer.spans, b.tracer.trace + [o.id]))
                                   else b.tracer.writer))
  {
    var o := Trace(t, name, service, resource, spanType);
    var b := body(o.tracer);
    assert (t.stack + [o.id])[..|t.stack|] == t.stack;
    LeaveTop(b.tracer, o.id, b.outcome.Raised?);
  }

  /** Finishing the current span pops exactly it: the span below becomes
      current, and the span joins the trace in progress or, as the root,
      completes it. */
  lemma FinishTop(t: Tracer, id: SpanId)
    requires Valid(t) && |t.stack| > 0 && t.stack[|t.stack| - 1] == id
    ensures var r := Finish(t, id);
            var below := t.stack[..|t.stack| - 1];
      && r.stack == below
      && r.spans == t.spans[id := t.spans[id].(finished := true)]
      && r.enabled == t.enabled && r.nextId == t.nextId
      && (|below| > 0 ==> r.trace == t.trace + [id] && r.writer == t.writer)
      && (|below| == 0 ==>
            && r.trace == []
            && r.writer == (if t.enabled then TestWriter.WriteTrace(t.writer, Records(r.spans, t.trace + [id]))
                            else t.writer))
  {
    var below := t.stack[..|t.stack| - 1];
    assert t.stack == below + [id];
    IndexOfLast(below, id);
  }

  /** Inert work inside an open trace: one new span, a finished child of
      the current span, joins the trace in progress; the stack, the writer
      and every span recorded before are unchanged. */
  lemma WithInertChild(t: Tracer, name: string, service: Option<string>,
                       resource: Option<string>, spanType: Option<string>, outcome: Outcome<int>)
    requires Valid(t) && |t.stack| > 0
    ensures var r := With(t, name, service, resource, spanType, Inert(outcome)).tracer;
            var p := t.spans[t.stack[|t.stack| - 1]];
      && With(t, name, service, resource, spanType, Inert(outcome)).outcome == outcome
      && r.stack == t.stack && r.writer == t.writer && r.enabled == t.enabled && r.nextId > t.nextId
      && |r.trace| == |t.trace| + 1 && r.trace[..|t.trace|] == t.trace
      && var id := r.trace[|t.trace|];
         var s := r.spans[id];
      && id !in t.spans && r.spans.Keys == t.spans.Keys + {id}
      && (forall x :: x in t.spans ==> r.spans[x] == t.spans[x])
      && s.spanId == id && s.name == name && s.spanType == spanType
      && s.parentId == Some(p.spanId) && s.traceId == p.traceId
      && s.service == (if Truthy(service) then service else p.service)
      && s.resource == (if Truthy(resource) then resource.value else name)
      && s.finished && s.error == (if outcome.Raised? then 1 else 0) && s.meta == map[]
  {
    var o := Trace(t, name, service, resource, spanType);
    assert Inert(outcome)(o.tracer) == Step(o.tracer, outcome);
    WithBalanced(t, name, service, resource, spanType, Inert(outcome));
    var r := With(t, name, service, resource, spanType, Inert(outcome)).tracer;
    ClosedChild(t, o.tracer, o.id, r, if outcome.Raised? then 1 else 0);
  }

  /** Closing a span `id` that was pushed onto `t` (giving `v`) and left
      alone in between adds it, finished, to the trace in progress and
      changes nothing else `t` held. */
  lemma ClosedChild(t: Tracer, v: Tracer, id: SpanId, r: Tracer, e: int)
    requires id !in t.spans && id in v.spans
    requires forall x :: x in t.spans ==> x in v.spans && v.spans[x] == t.spans[x]
    requires v.spans.Keys == t.spans.Keys + {id}
    requires v.trace == t.trace && v.writer == t.writer && v.enabled == t.enabled && v.nextId > t.nextId
    requires && r.stack == t.stack && r.enabled == v.enabled && r.nextId == v.nextId
             && r.trace == v.trace + [id] && r.writer == v.writer
             && r.spans == v.spans[id := v.spans[id].(finished := true, error := e)]
    ensures && r.stack == t.stack && r.writer == t.writer && r.enabled == t.enabled && r.nextId > t.nextId
            && |r.trace| == |t.trace| + 1 && r.trace[..|t.trace|] == t.trace && r.trace[|t.trace|] == id
            && r.spans.Keys == t.spans.Keys + {id}
            && (forall x :: x in t.spans ==> r.spans[x] == t.spans[x])
            && r.spans[id] == v.spans[id].(finished := true, error := e)
  {
    assert (t.trace + [id])[..|t.trace|] == t.trace;
  }

  /** Inert work on an idle tracer: a one-span trace is written if the
      tracer is enabled, nothing otherwise, and no span is current after. */
  lemma WithInertRoot(t: Tracer, name: string, service: Option<string>,
                      resource: Option<string>, spanType: Option<string>, outcome: Outcome<int>)
    requires Valid(t) && |t.stack| == 0
    ensures var o := Trace(t, name, service, resource, spanType);
            var r := With(t, name, service, resource, spanType, Inert(outcome));
            var s := o.tracer.spans[o.id].(finished := true, error := if outcome.Raised? then 1 else 0);
      && r.outcome == outcome
      && r.tracer.stack == [] && r.tracer.trace == [] && CurrentSpan(r.tracer) == None
      && r.tracer.enabled == t.enabled && r.tracer.nextId == o.tracer.nextId
      && r.tracer.writer == (if t.enabled then TestWriter.WriteTrace(t.writer, [s]) else t.writer)
  {
    WithBalanced(t, name, service, resource, spanType, Inert(outcome));
    var o := Trace(t, name, service, resource, spanType);
    var r := With(t, name, service, resource, spanType, Inert(outcome));
    assert Records(r.tracer.spans, [o.id]) == [r.tracer.spans[o.id]];
  }

  /** A span pushed last on a stack that did not hold it sits at the top. */
  lemma IndexOfLast(s: seq<SpanId>, x: SpanId)
    requires x !in s
    ensures IndexOf(s + [x], x) == |s|
  {
  }

  /** One public call on the tracer, as instrumented code makes it. */
  datatype Op =
    | Open(name: string, service: Option<string>, resource: Option<string>, spanType: Option<string>)
    | Close(id: SpanId)
    | Tag(id: SpanId, key: string, value: string)

  function Apply(t: Tracer, op: Op): (t': Tracer)
    requires Valid(t)
    ensures Valid(t') && t'.enabled == t.enabled && t'.nextId >= t.nextId
  {
    match op
    case Open(n, s, r, ty) => Trace(t, n, s, r, ty).tracer
    case Close(id) => Finish(t, id)
    case Tag(id, k, v) => SetTag(t, id, k, v)
  }

  /** A sequence of calls, in order. */
  function Run(t: Tracer, ops: seq<Op>): (t': Tracer)
    requires Valid(t)
    ensures Valid(t') && t'.enabled == t.enabled
    decreases |ops|
  {
    if |ops| == 0 then t else Run(Apply(t, ops[0]), ops[1..])
  }

  /** Whatever instrumented code does, the writer's buffer only grows at
      its end: spans already written are never changed or reordered. */
  lemma {:induction false} RunOnlyAppends(t: Tracer, ops: seq<Op>)
    requires Valid(t)
    ensures |Run(t, ops).writer.spans| >= |t.writer.spans|
    ensures Run(t, ops).writer.spans[..|t.writer.spans|] == t.writer.spans
    decreases |ops|
  {
    if |ops| > 0 {
      var t1 := Apply(t, ops[0]);
      assert |t1.writer.spans| >= |t.writer.spans| && t1.writer.spans[..|t.writer.spans|] == t.writer.spans;
      RunOnlyAppends(t1, ops[1..]);
      var w := Run(t, ops).writer.spans;
      assert w[..|t1.writer.spans|] == t1.writer.spans;
      assert w[..|t.writer.spans|] == w[..|t1.writer.spans|][..|t.writer.spans|];
    }
  }

  /** A disabled tracer writes nothing, whatever instrumented code does. */
  lemma {:induction false} DisabledRunWritesNothing(t: Tracer, ops: seq<Op>)
    requires Valid(t) && !t.enabled
    ensures Run(t, ops).writer == t.writer
    decreases |ops|
  {
    if |ops| > 0 {
      DisabledRunWritesNothing(Apply(t, ops[0]), ops[1..]);
    }
  }
}
